=== FILE: README.md ===
# ImageVault core, modelled in Dafny

ImageVault is a photo library built on Supabase. This project models four
pieces of it:

- **`rename-image` edge function.** It renames a stored image:
  - it validates the request body;
  - it authenticates the bearer token;
  - it looks the image up among the caller's own rows and reads the S3 configuration;
  - it copies the object to its new key with a hand-rolled AWS Signature
    Version 4 signer (`getSignature`), deletes the old object, and then updates
    the row's filename, URL and tags.
- **`manage-hidden-password` edge function.** A per-user store of password
  hashes for the hidden folder, with the actions `check`, `set`, `verify` and
  `reset`.
- **The hidden-folder dialog (`HiddenFolder.tsx`).** The client state
  transitions of:
  - the password gate: set, verify, reset, and forgetting on close;
  - the image grid's multi-select handlers.
- **The trash bin dialog (`TrashBin.tsx`).** Restore, permanent delete,
  empty trash, the multi-select handlers and the bulk operations.

Everything is pure. SHA-256 and HMAC-SHA-256 are a `Crypto` record of total
functions returning 32-byte digests. `Date.now()` and `new Date().toISOString()`
come in as a `Clock` value. Every database query, S3 request and `fetch`
becomes a field of a scripted outcome record. Each handler returns its HTTP
status together with its effects:
- the S3 requests it signed, in order;
- the image table or password store afterwards;
- on the client, the next dialog state and the request body it sent.

Modules follow the source:

| module | models |
|---|---|
| `Text` | JavaScript string operations the code uses: `trim`, `toLowerCase`, `split`/`join`, `replace` of the first match, `.length` in UTF-16 code units, decimal printing |
| `Bytes` | bytes, `TextEncoder` UTF-8, two-digit lower-case hex, the crypto oracle |
| `Sorting` | ordinal string order and the insertion sort standing in for `Array.prototype.sort` |
| `SigV4` | `getSignature`: canonical request, credential scope, signing-key chain, `Authorization` value |
| `Edge` | the shared bearer-token authentication of both edge functions |
| `RenameKeys` | `amzDate`/`dateStamp`, old key, new key and URL, the S3 configuration, filename-to-tags |
| `RenameImage` | the `rename-image` handler and its two signed S3 requests |
| `HiddenPassword` | the `manage-hidden-password` handler |
| `Selection` | the multi-select state machine both grids define |
| `TrashBin` | the trash bin handlers |
| `HiddenFolder` | the hidden-folder password gate |

## Model

| member | source | states |
|---|---|---|
| Text.Trim | supabase/functions/rename-image/index.ts:77-80 | the result is a slice of the input with only whitespace cut from either end; it is non-whitespace at both ends, and empty exactly when the input is all whitespace |
| Text.Utf16Length | src/components/HiddenFolder.tsx:75 | `.length` counts UTF-16 code units: between one and two per character, and one per character below U+10000 |
| Text.Utf16LengthOfChar | src/components/HiddenFolder.tsx:75 | a single character counts 2 from U+10000 on (a surrogate pair), otherwise 1 |
| Text.Utf16LengthAppend | supabase/functions/manage-hidden-password/index.ts:83 | the `.length` of a concatenation is the sum of the parts' lengths, so with the single-character count it is exact for every string |
| Text.Take | supabase/functions/rename-image/index.ts:100 | `slice(0, n)` is a prefix of the input, of length `n` when the input has that many characters and the whole input otherwise |
| Text.Split | supabase/functions/rename-image/index.ts:92 | `split` on a literal separator always yields at least one piece |
| Text.NatToDecimal | supabase/functions/rename-image/index.ts:94 | the timestamp prints as a non-empty string of decimal digits without a leading zero, `0` exactly for zero |
| Text.Lower | supabase/functions/rename-image/index.ts:116 | `toLowerCase` keeps the length and lower-cases each character independently |
| Text.SplitThenJoin | supabase/functions/rename-image/index.ts:92 | joining the pieces of `split(sep)` with `sep` gives back the original string |
| Text.JoinThenSplit | supabase/functions/rename-image/index.ts:117 | splitting a newline-joined list of newline-free lines recovers exactly those lines |
| Text.ReplaceFirst | supabase/functions/rename-image/index.ts:47 | `replace` with a string pattern rewrites only the first occurrence and leaves a string without the pattern unchanged |
| Text.DecimalRoundTrip | supabase/functions/rename-image/index.ts:94 | the decimal text of the timestamp reads back as the same number |
| Bytes.Utf8 | supabase/functions/manage-hidden-password/index.ts:11-12 | `TextEncoder` gives between one and four bytes per character |
| Bytes.Utf8OfAscii | supabase/functions/manage-hidden-password/index.ts:11-12 | `TextEncoder` maps an ASCII string to one byte per character, equal to its code |
| Bytes.Hex | supabase/functions/manage-hidden-password/index.ts:15 | each byte becomes two lower-case hex digits, so the text is twice the byte count long and all hex |
| Bytes.HexRoundTrip | supabase/functions/rename-image/index.ts:136 | decoding the hex text of a byte string gives back those bytes |
| Bytes.HexInjective | supabase/functions/manage-hidden-password/index.ts:152 | two hex texts are equal exactly when the byte strings they encode are equal |
| Sorting.SortBy | supabase/functions/rename-image/index.ts:114-120 | sorting the header entries neither drops nor duplicates any: the result is a permutation of the input |
| Sorting.SortBySorted | supabase/functions/rename-image/index.ts:115 | sorting entries with distinct keys yields strictly increasing keys |
| Sorting.SortByCharacterized | supabase/functions/rename-image/index.ts:115 | any strictly increasing arrangement of the same distinct-keyed entries is the sort's result |
| Sorting.SortByPermutationInvariant | supabase/functions/rename-image/index.ts:114-121 | the sort's result depends only on the multiset of entries, not their input order |
| SigV4.GetSignature | supabase/functions/rename-image/index.ts:111-142 | `signedHeaders` is the lower-cased, sorted, `;`-joined names; `Authorization` is `AWS4-HMAC-SHA256 Credential=<id>/<scope>, SignedHeaders=<list>, Signature=` followed by 64 hex digits that decode to the HMAC of the string to sign under the four-step signing key |
| SigV4.DateStamp | supabase/functions/rename-image/index.ts:100 | the date stamp is a prefix of `amzDate`, eight characters when `amzDate` has at least eight |
| SigV4.SignedHeadersFollowCanonicalOrder | supabase/functions/rename-image/index.ts:114-121 | for lower-case distinct names, the signed-header list names the canonical header lines in the same order |
| SigV4.HeaderOrderIrrelevant | supabase/functions/rename-image/index.ts:114-121 | permuting the header record leaves the canonical request, the signed-header list and the `Authorization` value unchanged |
| SigV4.CanonicalRequestIsJoinOfLines | supabase/functions/rename-image/index.ts:112-122 | the canonical request is the verb, `/`+key, an empty query line, the sorted header lines, a blank line, the signed-header list and `UNSIGNED-PAYLOAD`, joined by newlines |
| SigV4.CanonicalRequestLines | supabase/functions/rename-image/index.ts:112-122 | read back line by line, the canonical request is exactly those lines, so the header block ends in a newline and a blank line precedes the signed-header list |
| Edge.Authenticate | supabase/functions/manage-hidden-password/index.ts:27-62 | a missing or empty `Authorization` header is refused with "No authorization header"; otherwise the caller is authenticated exactly when the token after `Bearer ` names a session, else refused with "Unauthorized" |
| Edge.BearerTokenOfHeader | supabase/functions/rename-image/index.ts:47 | stripping `Bearer ` from `Bearer <token>` gives the token |
| Edge.BearerTokenOfBareHeader | supabase/functions/manage-hidden-password/index.ts:38 | an `Authorization` header that does not contain `Bearer ` anywhere passes through `replace` unchanged and is used as the token itself |
| Edge.AuthenticateWithSession | supabase/functions/rename-image/index.ts:47-58 | a `Bearer` header carrying a live session's token authenticates as that session's user |
| RenameKeys.AmzDate | supabase/functions/rename-image/index.ts:99 | the regex replace never lengthens the timestamp and leaves no `:` or `-` in it |
| RenameKeys.AmzDateOfIsoTimestamp | supabase/functions/rename-image/index.ts:98-100 | for `YYYY-MM-DDTHH:MM:SS.sssZ`, `amzDate` is the 16-character `YYYYMMDDTHHMMSSZ` and its first eight characters are `YYYYMMDD` |
| RenameKeys.AmzDateAppend | supabase/functions/rename-image/index.ts:99 | dropping `:`, `-` and a dot with three digits distributes over concatenation when the left part has no dot |
| RenameKeys.OldKey | supabase/functions/rename-image/index.ts:92 | there is an old key exactly when the URL contains `.com/`; it is the text after the first `.com/` and holds no further `.com/` |
| RenameKeys.OldKeyIsSegment | supabase/functions/rename-image/index.ts:92 | the old key is exactly the text between the first `.com/` and the next one, or the end of the URL |
| RenameKeys.NewKeyRoundTrip | supabase/functions/rename-image/index.ts:93-94 | the new key `<timestamp>-<filename>` can be read back into the same timestamp and filename |
| RenameKeys.OldKeyOfNewUrl | supabase/functions/rename-image/index.ts:92-95 | the old key extracted from a URL built by the handler is the key it was built from |
| RenameKeys.Configure | supabase/functions/rename-image/index.ts:77-90 | configuration succeeds exactly when the trimmed access key, secret and bucket are non-empty; the region is the trimmed value, or `us-east-1` when unset or blank |
| RenameKeys.StripExtension | supabase/functions/rename-image/index.ts:192 | a trailing `.ext` is removed exactly when `ext` is non-empty and holds no `.` or `/`; otherwise the name is kept |
| RenameKeys.SplitOnRuns | supabase/functions/rename-image/index.ts:193 | splitting on runs of `-`, `_` and whitespace yields at least one piece, none containing a separator |
| RenameKeys.SplitOnRunsKeepsText | supabase/functions/rename-image/index.ts:193 | the pieces, concatenated, are the input with every separator removed |
| RenameKeys.NonEmpty | supabase/functions/rename-image/index.ts:194 | the filter keeps exactly the non-empty pieces |
| RenameKeys.TagsWellFormed | supabase/functions/rename-image/index.ts:191-195 | every tag is non-empty, lower-case and separator-free, and together the tags spell the lower-cased, separator-free stem of the filename |
| RenameKeys.StripAddedExtension | supabase/functions/rename-image/index.ts:192 | stripping the extension from `<stem>.<ext>`, with `ext` non-empty and free of `.` and `/`, gives back the stem |
| RenameKeys.SplitOnRunsOfJoin | supabase/functions/rename-image/index.ts:193 | non-empty separator-free words joined by `-` split back into exactly those words |
| RenameKeys.TagsOfWords | supabase/functions/rename-image/index.ts:191-195 | a file name of non-empty separator-free words joined by `-`, plus an extension, yields exactly those words lower-cased, in order and with repetitions |
| RenameKeys.TagsOfSeparatorsOnly | supabase/functions/rename-image/index.ts:191-195 | `___.png` yields no tags |
| RenameKeys.TagsOfPlainName | supabase/functions/rename-image/index.ts:191-195 | `noext` yields the single tag `noext` |
| RenameKeys.TagsKeepDuplicates | supabase/functions/rename-image/index.ts:191-195 | `Cat-cat.jpg` yields `cat` twice: tags are not de-duplicated |
| RenameImage.WireHeaders | supabase/functions/rename-image/index.ts:150-158 | the headers sent are the signed ones, in order, followed by `Authorization` carrying the signature `getSignature` computed over exactly those signed headers |
| RenameImage.Transfer | supabase/functions/rename-image/index.ts:150-225 | the copy is always issued; the delete is issued exactly when the copy answered ok; the reply is 200 exactly when the copy was ok, the delete answered and the update succeeded; any other reply is a 500 with the table unchanged; on 200 only the renamed row changes |
| RenameImage.Admit | supabase/functions/rename-image/index.ts:11-90 | every early exit is a 200, 400, 401, 404 or 500 with no updated row, and a request that passes all checks carries a row of the table |
| RenameImage.Rename | supabase/functions/rename-image/index.ts:10-235 | the reply is 200, 400, 401, 404 or 500; a non-200 leaves the table unchanged; no row is added or removed; at most two S3 requests are made, and none on 400, 401 or 404 |
| RenameImage.MissingFieldsRejected | supabase/functions/rename-image/index.ts:19-29 | a body lacking either field gets 400 before authentication, with no S3 request |
| RenameImage.UnauthenticatedRejected | supabase/functions/rename-image/index.ts:31-58 | with both fields present, the reply is 401 exactly when authentication fails; a missing header gives "No authorization header" with no S3 request |
| RenameImage.LookupIsOwnerScoped | supabase/functions/rename-image/index.ts:60-75 | for an authenticated request, the reply is 404 exactly when the lookup failed or no row has that id and the caller's user id |
| RenameImage.UnconfiguredRejected | supabase/functions/rename-image/index.ts:77-90 | missing credentials give 500 before any S3 request |
| RenameImage.CopyFailureIsFatal | supabase/functions/rename-image/index.ts:150-170 | a non-ok copy gives 500 "Failed to copy file in S3" after only the copy request, with the table unchanged |
| RenameImage.DeleteOutcomeIgnored | supabase/functions/rename-image/index.ts:177-189 | the handler behaves the same whether the delete answered ok or not |
| RenameImage.UpdateFailureAfterStorage | supabase/functions/rename-image/index.ts:197-217 | a failed update gives 500 after both S3 requests were made, and the row still points at the old URL |
| RenameImage.RenameSucceeds | supabase/functions/rename-image/index.ts:150-225 | on success both requests are issued in order, the row gets the new filename, URL and tags, no other row changes, and the reply returns the updated row |
| RenameImage.CopySignedHeaderList | supabase/functions/rename-image/index.ts:144-149 | the copy request signs `host;x-amz-content-sha256;x-amz-copy-source;x-amz-date` |
| RenameImage.DeleteSignedHeaderList | supabase/functions/rename-image/index.ts:172-176 | the delete request signs `host;x-amz-content-sha256;x-amz-date` |
| RenameImage.CopyAndDeleteShareTimestamp | supabase/functions/rename-image/index.ts:98-100 | the copy and delete requests carry the same `x-amz-date` and signing context, taken from the one clock read |
| RenameImage.ScopeFromIsoTimestamp | supabase/functions/rename-image/index.ts:125 | the credential scope is `YYYYMMDD/<region>/s3/aws4_request`, built from the ISO date |
| RenameImage.RenamedRowYieldsNewKey | supabase/functions/rename-image/index.ts:92-95 | a renamed row's URL yields the new key when read back as an old key |
| HiddenPassword.HashPassword | supabase/functions/manage-hidden-password/index.ts:10-16 | the stored hash is 64 lower-case hex digits |
| HiddenPassword.HashPasswordDecodes | supabase/functions/manage-hidden-password/index.ts:10-16 | the hash text decodes to the SHA-256 digest of the password's UTF-8 bytes |
| HiddenPassword.HashPasswordsAgree | supabase/functions/manage-hidden-password/index.ts:151-152 | two passwords hash to the same text exactly when their digests agree |
| HiddenPassword.StoredHash | supabase/functions/manage-hidden-password/index.ts:135-141 | a stored hash exists exactly when the select succeeded and the user's row holds a non-empty hash |
| HiddenPassword.Check | supabase/functions/manage-hidden-password/index.ts:66-80 | `check` answers 200 with `hasPassword` true exactly when a stored hash exists, and leaves the store unchanged |
| HiddenPassword.Set | supabase/functions/manage-hidden-password/index.ts:82-122 | a missing or short password gives 400, a failed write 500, both with the store unchanged; otherwise the user's hash becomes the password's hash, row or no row, and no other user changes |
| HiddenPassword.Verify | supabase/functions/manage-hidden-password/index.ts:124-161 | a missing password or missing hash gives 400; otherwise 200 with `valid` exactly when the hash matches; the store never changes |
| HiddenPassword.Reset | supabase/functions/manage-hidden-password/index.ts:163-201 | a missing or short password gives 400, a failed write 500; on success an existing row gets the new hash, a user without a row is left without one, and no other user changes |
| HiddenPassword.Dispatch | supabase/functions/manage-hidden-password/index.ts:203-209 | any other action gives 400 "Invalid action" with the store unchanged |
| HiddenPassword.Handle | supabase/functions/manage-hidden-password/index.ts:18-220 | OPTIONS is 200; a refused caller gets 401 before the body is read; an unreadable body 500; every reply is 200, 400, 401 or 500; only a 200 changes the store, and then only the caller's entry |
| HiddenPassword.RefusedBeforeBody | supabase/functions/manage-hidden-password/index.ts:27-36 | without an `Authorization` header the body is irrelevant and the reply is 401 |
| HiddenPassword.SetThenVerify | supabase/functions/manage-hidden-password/index.ts:93-103 | after a successful `set` of a password, `verify` of the same password answers `valid: true` |
| HiddenPassword.VerifyAfterSet | supabase/functions/manage-hidden-password/index.ts:151-152 | after `set(p)`, `verify(q)` answers `valid` exactly when the digests of `q` and `p` agree |
| HiddenPassword.ResetIgnoresStoredHash | supabase/functions/manage-hidden-password/index.ts:163-201 | the reply to `reset` does not depend on the stored hash: the current password is never checked |
| HiddenPassword.ResetWithoutRow | supabase/functions/manage-hidden-password/index.ts:176-182 | `reset` for a user without a row answers 200 and stores nothing |
| HiddenPassword.ResetNeedsPasswordField | supabase/functions/manage-hidden-password/index.ts:163-172 | a `reset` body without a `password` field gets 400 with the store unchanged |
| Selection.Toggle | src/components/HiddenFolder.tsx:584-595 | exactly the one id flips membership; selection mode stays on only while something is selected |
| Selection.Click | src/components/TrashBin.tsx:244-248 | outside selection mode a click changes nothing; in selection mode it flips exactly that id's membership, and the mode stays on only while something remains selected |
| Selection.ToggleMode | src/components/HiddenFolder.tsx:597-600 | the mode flips and the selection empties |
| Selection.SelectAll | src/components/TrashBin.tsx:168-170 | the selection becomes exactly the ids shown, and the mode is kept |
| Selection.DeselectAll | src/components/HiddenFolder.tsx:606-609 | nothing is selected and selection mode is off |
| Selection.HandlersKeepCoherent | src/components/HiddenFolder.tsx:584-609 | no reachable handler leaves ids selected outside selection mode |
| Selection.ToggleTwice | src/components/TrashBin.tsx:150-161 | toggling an id twice restores the selected set |
| Selection.ClickTwice | src/components/HiddenFolder.tsx:708-712 | clicking an id twice is a no-op, unless it was the only selection, which ends selection mode |
| Selection.ToggleModeTwice | src/components/TrashBin.tsx:163-166 | toggling the mode twice returns to the same mode with nothing selected |
| TrashBin.Drop | src/components/TrashBin.tsx:71-75 | the kept images are exactly those whose id is not among the removed ids |
| TrashBin.DropKeepsOrder | src/components/TrashBin.tsx:71-75 | the kept images appear in their original order |
| TrashBin.DropCounts | src/components/TrashBin.tsx:103-107 | every kept image keeps its multiplicity and every removed one disappears |
| TrashBin.DropNothing | src/components/TrashBin.tsx:71-75 | filtering out ids the list does not hold leaves it unchanged |
| TrashBin.RemoveOne | src/components/TrashBin.tsx:57-114 | restore and permanent delete request that one id; an ok response drops exactly its entries, a failure changes nothing; the selection is untouched |
| TrashBin.EmptyTrash | src/components/TrashBin.tsx:116-148 | an empty list sends nothing; otherwise the request is sent and an ok response empties the list |
| TrashBin.Bulk | src/components/TrashBin.tsx:177-242 | an empty selection does nothing; otherwise every selected id is requested and, once the requests settle, the selected images leave the list and selection ends; the responses' `ok` flags are never read, so they are not an input, and a rejected batch changes nothing |
| TrashBin.SelectAllTrashed | src/components/TrashBin.tsx:168-170 | `selectAll` selects exactly the ids of the trashed images |
| TrashBin.BulkKeepsUnselected | src/components/TrashBin.tsx:221-235 | after a bulk operation the unselected images remain in order and multiplicity |
| TrashBin.RestoredIsNotReselected | src/components/TrashBin.tsx:71-75 | after a successful restore, selecting all no longer selects the restored id |
| TrashBin.RemoveOneKeepsOthers | src/components/TrashBin.tsx:103-107 | a successful removal drops exactly that id's entries and keeps the rest in order and multiplicity |
| TrashBin.EmptyIsBulkOfAll | src/components/TrashBin.tsx:116-148 | emptying a non-empty trash leaves the same (empty) list as selecting every trashed image and deleting the selection in bulk |
| TrashBin.RemoveAbsent | src/components/TrashBin.tsx:57-83 | removing an id that is not listed leaves the list unchanged |
| HiddenFolder.Open | src/components/HiddenFolder.tsx:50-72 | opening sends `check`; an ok answer records `hasPassword`; nothing else changes |
| HiddenFolder.Close | src/components/HiddenFolder.tsx:29-42 | closing locks the folder and clears every password field, the error and the reset flags, keeping only `hasPassword` |
| HiddenFolder.CloseForgets | src/components/HiddenFolder.tsx:29-42 | after closing, the gate depends only on `hasPassword`, and closing twice is closing once |
| HiddenFolder.SetPassword | src/components/HiddenFolder.tsx:74-113 | a short password, then a mismatch, give an error with no request; otherwise `set` is sent, and an ok answer unlocks, records a password, clears both fields and the error, and leaves the rest of the dialog as it was |
| HiddenFolder.VerifyPassword | src/components/HiddenFolder.tsx:115-152 | an empty password gives an error with no request; otherwise the folder unlocks exactly on `valid: true`, clearing the password; `valid: false` shows "Incorrect password" |
| HiddenFolder.ResetGuard | src/components/HiddenFolder.tsx:155-168 | the guards run in order: empty current password, short new password, mismatch; a request is allowed exactly when all pass |
| HiddenFolder.ResetWith | src/components/HiddenFolder.tsx:154-207 | a failed guard shows its error and sends nothing; otherwise the body is sent, an ok answer shows success, and a server error shows the server's message; lock state is untouched |
| HiddenFolder.ResetPasswordAsWritten | src/components/HiddenFolder.tsx:181-185 | a request is sent exactly when the guards pass, and it carries no `password` field |
| HiddenFolder.ResetPassword | src/components/HiddenFolder.tsx:154-207 | corrected reset: a request is sent exactly when the guards pass, and its `password` field is the new password |
| HiddenFolder.SetPasswordRoundTrip | src/components/HiddenFolder.tsx:74-113 | a `set` the server accepts unlocks the dialog, and the server then stores the hash of the typed password |
| HiddenFolder.OpenAfterSet | src/components/HiddenFolder.tsx:50-72 | after the server accepted a `set`, opening the dialog learns from `check` that a password exists |
| HiddenFolder.VerifyUnlocksOnMatch | src/components/HiddenFolder.tsx:115-152 | against the server, the dialog unlocks exactly when the typed password's hash is the stored one |
| HiddenFolder.ResetBodyAsWritten | src/components/HiddenFolder.tsx:181-185 | the reset request names the `reset` action but carries no `password` field |
| HiddenFolder.ResetBodyCorrected | supabase/functions/manage-hidden-password/index.ts:163-165 | the corrected reset request carries the new password in the `password` field the server reads |
| HiddenFolder.ResetAsWrittenAlwaysRefused | src/components/HiddenFolder.tsx:181-185 | every reset the client sends is refused with 400 "Password must be at least 4 characters", and that is the error shown |
| HiddenFolder.ResetAsWrittenCounterexample | src/components/HiddenFolder.tsx:181-185 | a concrete dialog state passes every guard yet the server answers 400 |
| HiddenFolder.ResetCorrectedSucceeds | supabase/functions/manage-hidden-password/index.ts:163-201 | with the corrected body, a reset the guards allow succeeds, stores the new password's hash, and shows success |

## Left out

- HTTP plumbing is not modelled: CORS headers, `Deno.serve`, the response JSON encoding and the `console` logging.
- JSON bodies are maps of string fields. A field of another JSON type, and the exception it would raise, is not modelled.
- A failing `req.json()` in either edge function is modelled as a 500 with no effect; the exception's text is not.
- SHA-256 and HMAC-SHA-256 are not computed. They are arbitrary functions with 32-byte results, so properties hold for every choice of them.
- The clock is not modelled. `Date.now()` and `new Date().toISOString()` are inputs, and only the latter's documented shape is assumed where a lemma needs it.
- `localeCompare` collation is not modelled. Both sorts in `getSignature` use ordinal order, under the precondition that header names are distinct lower-case ASCII. That holds for both header sets the handler signs.
- RenameKeys.SplitOnRuns: the tag regex's `\s` is the ASCII whitespace set (space, tab, line feed, vertical tab, form feed, carriage return). Unicode space characters are not modelled.
- Text.Lower: `toLowerCase` only lower-cases `A`-`Z`. Non-ASCII case mapping is not modelled.
- Text.Trim strips only ASCII whitespace, so it differs from JavaScript's `trim` on values holding Unicode spaces or line terminators.
- The bulk operations' `Promise.all` is one atomic batch. The interleaving of the requests is not modelled.
- On a rejected bulk batch the trash bin only logs and alerts (src/components/TrashBin.tsx:203-205, 236-238); the list and selection stay unchanged, which is what `TrashBin.Bulk` computes. Fetching the lists when a dialog opens (`fetchDeletedImages`, `fetchHiddenImages`) is not modelled.
- A `confirm` dialog the user cancels behaves as if the handler was never invoked, so it is not modelled.
- Rendering, `alert`, loading flags and the `onImageRestored`/`onImageUnhidden` callbacks are not modelled.
- The two-second `setTimeout` that closes the reset form after success (src/components/HiddenFolder.tsx:194-200) is not modelled.
- The hidden-folder grid's unhide and delete handlers are not modelled. They call other edge functions; on success the parent refetches the hidden images (src/components/HiddenFolder.tsx:230-231), and on failure they only log and alert, so they hold no list logic of their own. Once a batch settles both bulk handlers empty the selection and leave selection mode (src/components/HiddenFolder.tsx:632-634, 696-698), which is `Selection.Idle`.
- The other components and edge functions of the repository (albums, search, filters, authentication form, `empty-trash`, `get-album-images`) are not part of this model.

Two behaviours of the code worth noting:

- `reset` on a user without a settings row answers 200 and stores nothing, because `update` matches no row.
- A delete request that rejects at the network level, rather than answering non-ok, is not merely logged: it falls into the catch-all 500 after the copy was made.

## Findings

| source | as written | input that shows it | evidently intended | confidence | as-written member | corrected member |
|---|---|---|---|---|---|---|
| src/components/HiddenFolder.tsx:181-185 | the reset request body carries `currentPassword` and `newPassword`, but the server's `reset` branch reads only `password` (supabase/functions/manage-hidden-password/index.ts:64, 164), so every reset the dialog allows is refused with 400 "Password must be at least 4 characters" | current password `abcd`, new password `abcd`, confirmation `abcd`: every client guard passes, yet the server answers 400 | send the new password as `password` | not executed | HiddenFolder.ResetAsWrittenCounterexample | HiddenFolder.ResetCorrectedSucceeds |

=== FILE: bytes.dfy ===
/** Bytes as the Web Crypto API sees them: `TextEncoder` output, SHA-256 and
    HMAC-SHA-256 digests, and the lower-case hex rendering
    `b.toString(16).padStart(2, '0')` both handlers apply to a digest. */
module Bytes {
  import opened Text

  newtype uint8 = x: int | 0 <= x < 256

  /** A SHA-256 output: 32 bytes. */
  type Digest = d: seq<uint8> | |d| == 32 witness seq(32, i => 0)

  /** SHA-256 (FIPS 180-4) and HMAC-SHA-256 (RFC 2104, key first) as the
      runtime computes them. Both are kept abstract: every property of the
      model holds for any pair of functions with 32-byte results. */
  datatype Crypto = Crypto(sha256: seq<uint8> -> Digest, hmac: (seq<uint8>, seq<uint8>) -> Digest)

  // ---------------------------------------------------------------------------
  // TextEncoder
  // ---------------------------------------------------------------------------

  /** The UTF-8 encoding of one Unicode scalar value. */
  function Utf8Char(c: char): (bs: seq<uint8>)
    ensures 1 <= |bs| <= 4
    ensures c as int < 0x80 <==> |bs| == 1
    ensures |bs| == 1 ==> bs[0] as int == c as int
    ensures |bs| > 1 ==> bs[0] >= 0xC0 && forall i :: 1 <= i < |bs| ==> 0x80 <= bs[i] < 0xC0
  {
    var n := c as int;
    if n < 0x80 then [n as uint8]
    else if n < 0x800 then [(0xC0 + n / 0x40) as uint8, (0x80 + n % 0x40) as uint8]
    else if n < 0x1_0000 then
      [(0xE0 + n / 0x1000) as uint8, (0x80 + (n / 0x40) % 0x40) as uint8, (0x80 + n % 0x40) as uint8]
    else
      [(0xF0 + n / 0x4_0000) as uint8, (0x80 + (n / 0x1000) % 0x40) as uint8,
       (0x80 + (n / 0x40) % 0x40) as uint8, (0x80 + n % 0x40) as uint8]
  }

  /** `new TextEncoder().encode(s)`. */
  function Utf8(s: string): (bs: seq<uint8>)
    ensures |s| <= |bs| <= 4 * |s|
  {
    if |s| == 0 then [] else Utf8Char(s[0]) + Utf8(s[1..])
  }

  predicate IsAscii(s: string) {
    forall i :: 0 <= i < |s| ==> s[i] as int < 0x80
  }

  /** On ASCII text the encoder is the identity on code points. */
  lemma {:induction false} Utf8OfAscii(s: string)
    requires IsAscii(s)
    ensures |Utf8(s)| == |s|
    ensures forall i :: 0 <= i < |s| ==> Utf8(s)[i] as int == s[i] as int
  {
    if |s| > 0 {
      Utf8OfAscii(s[1..]);
    }
  }

  // ---------------------------------------------------------------------------
  // Hex rendering
  // ---------------------------------------------------------------------------

  predicate IsHexDigit(c: char) {
    '0' <= c <= '9' || 'a' <= c <= 'f'
  }

  predicate IsHex(s: string) {
    forall i :: 0 <= i < |s| ==> IsHexDigit(s[i])
  }

  /** The lower-case digit `toString(16)` prints for a value below 16. */
  function HexDigit(d: nat): (c: char)
    requires d < 16
    ensures IsHexDigit(c)
  {
    if d < 10 then ('0' as int + d) as char else ('a' as int + d - 10) as char
  }

  function HexDigitValue(c: char): (d: nat)
    requires IsHexDigit(c)
    ensures d < 16 && HexDigit(d) == c
  {
    if c <= '9' then c as int - '0' as int else c as int - 'a' as int + 10
  }

  /** `b.toString(16).padStart(2, '0')`: always two lower-case digits, the
      high nibble first. */
  function ByteHex(b: uint8): (r: string)
    ensures |r| == 2 && IsHex(r)
    ensures HexDigitValue(r[0]) * 16 + HexDigitValue(r[1]) == b as int
  {
    [HexDigit(b as int / 16), HexDigit(b as int % 16)]
  }

  /** `Array.from(bytes).map(b => b.toString(16).padStart(2, '0')).join('')`. */
  function Hex(bs: seq<uint8>): (r: string)
    ensures |r| == 2 * |bs| && IsHex(r)
  {
    if |bs| == 0 then "" else ByteHex(bs[0]) + Hex(bs[1..])
  }

  /** Reads a hex rendering back into bytes, two digits per byte. */
  function UnHex(s: string): seq<uint8>
    requires |s| % 2 == 0 && IsHex(s)
  {
    if |s| == 0 then []
    else [(HexDigitValue(s[0]) * 16 + HexDigitValue(s[1])) as uint8] + UnHex(s[2..])
  }

  lemma {:induction false} HexRoundTrip(bs: seq<uint8>)
    ensures UnHex(Hex(bs)) == bs
  {
    if |bs| > 0 {
      var r := Hex(bs);
      assert r[..2] == ByteHex(bs[0]) && r[2..] == Hex(bs[1..]);
      HexRoundTrip(bs[1..]);
    }
  }

  /** Two byte strings render to the same hex text exactly when they are equal,
      so comparing hex digests compares the digests. */
  lemma HexInjective(a: seq<uint8>, b: seq<uint8>)
    ensures Hex(a) == Hex(b) <==> a == b
  {
    if Hex(a) == Hex(b) {
      HexRoundTrip(a);
      HexRoundTrip(b);
    }
  }
}

=== FILE: edge.dfy ===
/** What the two edge functions share: the CORS preflight, the falsiness test
    on JSON fields, and the bearer-token authentication against the auth
    service, which is given as a map from access token to user id. */
module Edge {
  import opened Wrappers
  import opened Text

  /** Only `OPTIONS` is told apart; every other method runs the handler. */
  datatype Method = Options | Post

  /** A string field of a JSON body is truthy when present and non-empty. */
  predicate Truthy(v: Option<string>) {
    v.Some? && v.value != ""
  }

  const BearerPrefix: string := "Bearer "

  /** `authHeader.replace("Bearer ", "")`: removes the first occurrence of the
      prefix, wherever it appears. */
  function BearerToken(header: string): string {
    ReplaceFirst(header, BearerPrefix, "")
  }

  /** The usual `Bearer <token>` header yields exactly the token. */
  lemma BearerTokenOfHeader(token: string)
    ensures BearerToken(BearerPrefix + token) == token
  {
    var h := BearerPrefix + token;
    assert OccursAt(h, BearerPrefix, 0);
    IndexOfFinds(h, BearerPrefix, 0, 0);
  }

  /** A header that does not mention the prefix is taken as the token. */
  lemma BearerTokenOfBareHeader(header: string)
    requires !Contains(header, BearerPrefix)
    ensures BearerToken(header) == header
  {
  }

  datatype Auth = Authenticated(userId: string) | Refused(error: string)

  const NoAuthorizationHeader: string := "No authorization header"
  const Unauthorized: string := "Unauthorized"

  /** The header check followed by `supabase.auth.getUser(token)`: a missing
      or empty header and an unknown token are refused with different errors;
      a known token authenticates as the user the session belongs to. */
  function Authenticate(authorization: Option<string>, sessions: map<string, string>): (a: Auth)
    ensures !Truthy(authorization) <==> a == Refused(NoAuthorizationHeader)
    ensures a.Refused? ==> a.error in {NoAuthorizationHeader, Unauthorized}
    ensures a.Authenticated? <==> Truthy(authorization) && BearerToken(authorization.value) in sessions
    ensures a.Authenticated? ==> a.userId == sessions[BearerToken(authorization.value)]
  {
    if !Truthy(authorization) then Refused(NoAuthorizationHeader)
    else
      var token := BearerToken(authorization.value);
      if token in sessions then Authenticated(sessions[token]) else Refused(Unauthorized)
  }

  /** A session's `Bearer` header authenticates as that session's user. */
  lemma AuthenticateWithSession(token: string, sessions: map<string, string>)
    requires token in sessions
    ensures Authenticate(Some(BearerPrefix + token), sessions) == Authenticated(sessions[token])
  {
    BearerTokenOfHeader(token);
  }
}

=== FILE: hidden_folder.dfy ===
/** The hidden folder dialog's password gate: the form fields, the lock, and
    what each button sends to `manage-hidden-password` and does with the
    reply. Rendering, the loading spinners and the image list are not
    modelled; the reply is a parameter. */
module HiddenFolder {
  import opened Wrappers
  import opened Text
  import opened Bytes
  import opened HiddenPassword

  datatype Gate = Gate(
    hasPassword: Option<bool>,
    password: string,
    confirmPassword: string,
    unlocked: bool,
    error: string,
    showReset: bool,
    resetSuccess: bool,
    currentPassword: string,
    newPassword: string)

  /** What `fetch` produced: a response with its JSON body, or a rejection. */
  datatype Response = Responded(status: nat, answer: Answer) | NetworkError(message: string)

  predicate Ok(r: Response) {
    r.Responded? && 200 <= r.status < 300
  }

  /** The reply a handler of the edge function gives, as the browser sees it. */
  function Received(r: Reply): Response {
    Responded(r.status, r.answer)
  }

  /** A handler's new state, and the body it posted if it posted one. */
  datatype Effect = Effect(gate: Gate, sent: Option<Body>)

  const ShortPassword: string := "Password must be at least 4 characters"
  const Mismatch: string := "Passwords do not match"
  const EnterPassword: string := "Please enter password"
  const Incorrect: string := "Incorrect password"
  const SetRetry: string := "Failed to set password. Please try again."
  const VerifyRetry: string := "Failed to verify password. Please try again."
  const EnterCurrent: string := "Please enter your current password"
  const NewTooShort: string := "New password must be at least 4 characters"
  const ResetFallback: string := "Failed to reset password"
  const ResetRetry: string := "Failed to reset password. Please try again."

  // ---------------------------------------------------------------------------
  // Opening and closing
  // ---------------------------------------------------------------------------

  function CheckBody(): Body {
    map["action" := "check"]
  }

  /** `checkPassword` on opening: an ok reply's `hasPassword` is stored; any
      other outcome leaves the state alone. */
  function Open(g: Gate, r: Response): (e: Effect)
    ensures e.sent == Some(CheckBody())
    ensures !Ok(r) ==> e.gate == g
    ensures e.gate == g.(hasPassword := e.gate.hasPassword)
    ensures Ok(r) && r.answer.HasPassword? ==> e.gate.hasPassword == Some(r.answer.hasPassword)
  {
    var known := if Ok(r) then (if r.answer.HasPassword? then Some(r.answer.hasPassword) else None)
                 else g.hasPassword;
    Effect(g.(hasPassword := known), Some(CheckBody()))
  }

  /** The effect that runs when `isOpen` turns false. */
  function Close(g: Gate): (r: Gate)
    ensures !r.unlocked && !r.showReset && !r.resetSuccess && r.error == ""
    ensures r.password == r.confirmPassword == r.currentPassword == r.newPassword == ""
    ensures r.hasPassword == g.hasPassword
  {
    g.(unlocked := false, password := "", confirmPassword := "", error := "",
       showReset := false, resetSuccess := false, currentPassword := "", newPassword := "")
  }

  /** Closing forgets everything but whether a password exists, so it is
      idempotent and two sessions that close end in the same state. */
  lemma CloseForgets(g: Gate, h: Gate)
    requires g.hasPassword == h.hasPassword
    ensures Close(g) == Close(h)
    ensures Close(Close(g)) == Close(g)
  {
  }

  // ---------------------------------------------------------------------------
  // Setting and verifying
  // ---------------------------------------------------------------------------

  /** `handleSetPassword`: the length guard, then the confirmation guard, then
      the `set` request. The reply body is not read. */
  function SetPassword(g: Gate, r: Response): (e: Effect)
    ensures Utf16Length(g.password) < MinLength ==> e == Effect(g.(error := ShortPassword), None)
    ensures Utf16Length(g.password) >= MinLength && g.password != g.confirmPassword ==>
              e == Effect(g.(error := Mismatch), None)
    ensures e.sent.Some? <==> Utf16Length(g.password) >= MinLength && g.password == g.confirmPassword
    ensures e.sent.Some? ==> e.sent.value == SetBody(g.password)
    ensures e.sent.Some? && Ok(r) ==>
              e.gate == g.(hasPassword := Some(true), unlocked := true, password := "", confirmPassword := "", error := "")
    ensures e.sent.Some? && !Ok(r) ==> e.gate == g.(error := SetRetry)
  {
    if Utf16Length(g.password) < MinLength then Effect(g.(error := ShortPassword), None)
    else if g.password != g.confirmPassword then Effect(g.(error := Mismatch), None)
    else
      var sent := Some(SetBody(g.password));
      if Ok(r) then
        Effect(g.(hasPassword := Some(true), unlocked := true, password := "", confirmPassword := "", error := ""), sent)
      else Effect(g.(error := SetRetry), sent)
  }

  /** `handleVerifyPassword`: unlocks only on an ok reply whose `valid` is
      true. */
  function VerifyPassword(g: Gate, r: Response): (e: Effect)
    ensures g.password == "" ==> e == Effect(g.(error := EnterPassword), None)
    ensures g.password != "" ==> e.sent == Some(VerifyBody(g.password))
    ensures e.gate.unlocked <==> g.unlocked || (g.password != "" && Ok(r) && r.answer == Valid(true))
    ensures g.password != "" && Ok(r) && r.answer == Valid(true) ==>
              e.gate == g.(unlocked := true, password := "", error := "")
    ensures g.password != "" && Ok(r) && r.answer != Valid(true) ==> e.gate == g.(error := Incorrect)
    ensures g.password != "" && !Ok(r) ==> e.gate == g.(error := VerifyRetry)
  {
    if g.password == "" then Effect(g.(error := EnterPassword), None)
    else
      var sent := Some(VerifyBody(g.password));
      if !Ok(r) then Effect(g.(error := VerifyRetry), sent)
      else if r.answer == Valid(true) then Effect(g.(unlocked := true, password := "", error := ""), sent)
      else Effect(g.(error := Incorrect), sent)
  }

  // ---------------------------------------------------------------------------
  // Resetting
  // ---------------------------------------------------------------------------

  /** The three early returns of `handleResetPassword`, in order. */
  function ResetGuard(g: Gate): (error: Option<string>)
    ensures g.currentPassword == "" ==> error == Some(EnterCurrent)
    ensures g.currentPassword != "" && Utf16Length(g.newPassword) < MinLength ==> error == Some(NewTooShort)
    ensures g.currentPassword != "" && Utf16Length(g.newPassword) >= MinLength && g.newPassword != g.confirmPassword ==>
              error == Some(Mismatch)
    ensures error.None? <==>
              g.currentPassword != "" && Utf16Length(g.newPassword) >= MinLength && g.newPassword == g.confirmPassword
  {
    if g.currentPassword == "" then Some(EnterCurrent)
    else if Utf16Length(g.newPassword) < MinLength then Some(NewTooShort)
    else if g.newPassword != g.confirmPassword then Some(Mismatch)
    else None
  }

  /** The body the dialog posts for a reset: no `password` field. */
  function ResetBodyAsWritten(g: Gate): (b: Body)
    ensures "password" !in b
    ensures Field(b, "action") == Some("reset")
  {
    map["action" := "reset", "currentPassword" := g.currentPassword, "newPassword" := g.newPassword]
  }

  /** The body the server's `reset` reads: the new password as `password`. */
  function ResetBodyCorrected(g: Gate): (b: Body)
    ensures Field(b, "password") == Some(g.newPassword)
    ensures Field(b, "action") == Some("reset")
  {
    ResetBodyAsWritten(g)["password" := g.newPassword]
  }

  /** The reset handler once its body is chosen: a non-ok reply shows the
      server's `error` (or a fallback); a rejected fetch shows its message. */
  function ResetWith(g: Gate, body: Body, r: Response): (e: Effect)
    ensures ResetGuard(g).Some? ==> e == Effect(g.(error := ResetGuard(g).value), None)
    ensures ResetGuard(g).None? ==> e.sent == Some(body)
    ensures e.gate.resetSuccess <==> g.resetSuccess || (ResetGuard(g).None? && Ok(r))
    ensures ResetGuard(g).None? && Ok(r) ==> e.gate == g.(resetSuccess := true, error := "")
    ensures ResetGuard(g).None? && r.Responded? && !Ok(r) && r.answer.Error? && r.answer.error != "" ==>
              e.gate == g.(error := r.answer.error)
    ensures e.gate.unlocked == g.unlocked && e.gate.hasPassword == g.hasPassword
  {
    match ResetGuard(g)
    case Some(message) => Effect(g.(error := message), None)
    case None =>
      if Ok(r) then Effect(g.(resetSuccess := true, error := ""), Some(body))
      else
        var message := match r
          case Responded(_, answer) => if answer.Error? && answer.error != "" then answer.error else ResetFallback
          case NetworkError(m) => if m != "" then m else ResetRetry;
        Effect(g.(error := message), Some(body))
  }

  /** `handleResetPassword` as the dialog has it. */
  function ResetPasswordAsWritten(g: Gate, r: Response): (e: Effect)
    ensures e.sent.Some? <==> ResetGuard(g).None?
    ensures e.sent.Some? ==> "password" !in e.sent.value
  {
    ResetWith(g, ResetBodyAsWritten(g), r)
  }

  /** `handleResetPassword` posting the field the server reads. */
  function ResetPassword(g: Gate, r: Response): (e: Effect)
    ensures e.sent.Some? <==> ResetGuard(g).None?
    ensures e.sent.Some? ==> Field(e.sent.value, "password") == Some(g.newPassword)
  {
    ResetWith(g, ResetBodyCorrected(g), r)
  }

  // ---------------------------------------------------------------------------
  // The dialog against the edge function
  // ---------------------------------------------------------------------------

  /** Setting a password from the dialog stores its hash and unlocks. */
  lemma SetPasswordRoundTrip(c: Crypto, g: Gate, settings: Settings, user: string, script: Script)
    requires Utf16Length(g.password) >= MinLength && g.password == g.confirmPassword
    requires script.writeOk
    ensures var server := Dispatch(c, settings, user, SetBody(g.password), script);
            var e := SetPassword(g, Received(server.reply));
            e.gate.unlocked && e.gate.hasPassword == Some(true)
            && StoredHash(server.settings, user, true) == Some(HashPassword(c, g.password))
  {
    var h := HashPassword(c, g.password);
    assert h != "" by { assert |h| == 64; }
    assert g.password != "";
    assert Field(SetBody(g.password), "action") == Some("set");
    assert Field(SetBody(g.password), "password") == Some(g.password);
  }

  /** Once a password has been set, reopening the dialog learns that one
      exists, so it asks for the password instead of offering to set one. */
  lemma OpenAfterSet(c: Crypto, g: Gate, settings: Settings, user: string, p: string, script: Script, later: Script)
    requires Set(c, settings, user, Some(p), script).reply.status == 200
    requires later.selectOk
    ensures var s := Set(c, settings, user, Some(p), script).settings;
            Open(g, Received(Dispatch(c, s, user, CheckBody(), later).reply)).gate.hasPassword == Some(true)
  {
    var h := HashPassword(c, p);
    assert h != "" by { assert |h| == 64; }
    assert Field(CheckBody(), "action") == Some("check");
  }

  /** Entering a password unlocks the dialog exactly when its hash is the
      stored one. */
  lemma VerifyUnlocksOnMatch(c: Crypto, g: Gate, settings: Settings, user: string, script: Script)
    requires g.password != "" && !g.unlocked
    requires StoredHash(settings, user, script.selectOk).Some?
    ensures var server := Dispatch(c, settings, user, VerifyBody(g.password), script);
            VerifyPassword(g, Received(server.reply)).gate.unlocked
            <==> Some(HashPassword(c, g.password)) == StoredHash(settings, user, script.selectOk)
  {
    assert Field(VerifyBody(g.password), "action") == Some("verify");
    assert Field(VerifyBody(g.password), "password") == Some(g.password);
  }

  /** As written, every reset the dialog lets through is refused by the
      server with its length error, which the dialog then shows; the stored
      hash is untouched. */
  lemma ResetAsWrittenAlwaysRefused(c: Crypto, g: Gate, settings: Settings, user: string, script: Script)
    requires ResetGuard(g).None?
    ensures var server := Dispatch(c, settings, user, ResetBodyAsWritten(g), script);
            server == Outcome(Reply(400, Error(TooShort)), settings)
            && ResetPasswordAsWritten(g, Received(server.reply)).gate == g.(error := TooShort)
  {
    ResetNeedsPasswordField(c, settings, user, ResetBodyAsWritten(g), script);
  }

  /** A concrete dialog state that passes every client guard. */
  lemma ResetAsWrittenCounterexample(c: Crypto, settings: Settings, user: string, script: Script)
    ensures var g := Gate(Some(true), "", "abcd", true, "", true, false, "abcd", "abcd");
            ResetGuard(g).None?
            && Dispatch(c, settings, user, ResetBodyAsWritten(g), script).reply.status == 400
  {
    var g := Gate(Some(true), "", "abcd", true, "", true, false, "abcd", "abcd");
    assert Utf16Length("abcd") == 4;
    ResetAsWrittenAlwaysRefused(c, g, settings, user, script);
  }

  /** With the new password posted as `password`, a reset the dialog lets
      through succeeds, stores the new hash for a user who has a row, and the
      dialog reports success. */
  lemma ResetCorrectedSucceeds(c: Crypto, g: Gate, settings: Settings, user: string, script: Script)
    requires ResetGuard(g).None? && script.writeOk && user in settings
    ensures var server := Dispatch(c, settings, user, ResetBodyCorrected(g), script);
            server.reply == Reply(200, Message(ResetDone))
            && StoredHash(server.settings, user, true) == Some(HashPassword(c, g.newPassword))
            && ResetPassword(g, Received(server.reply)).gate.resetSuccess
  {
    var h := HashPassword(c, g.newPassword);
    assert h != "" by { assert |h| == 64; }
    assert g.newPassword != "";
  }
}

=== FILE: password.dfy ===
/** The `manage-hidden-password` edge function: one POST endpoint whose
    `action` field selects `check`, `set`, `verify` or `reset` on the caller's
    row of the `user_settings` table. The table is a map from user id to the
    row's `hidden_folder_password` column (`None` for SQL null); the database
    calls are scripted to succeed or fail, and SHA-256 is the abstract
    `Crypto` oracle. */
module HiddenPassword {
  import opened Wrappers
  import opened Text
  import opened Bytes
  import opened Edge

  // ---------------------------------------------------------------------------
  // Data
  // ---------------------------------------------------------------------------

  /** `user_settings`: a row per user that has one, holding the stored hash. */
  type Settings = map<string, Option<string>>

  /** The string-valued fields of the JSON request body. */
  type Body = map<string, string>

  /** `body` is `None` when `req.json()` throws, or yields `null`; any other
      non-object value destructures to no fields, the empty map. */
  datatype Request = Request(verb: Method, authorization: Option<string>, body: Option<Body>)

  /** Whether the `select`, and the `upsert` or `update`, report an error. */
  datatype Script = Script(selectOk: bool, writeOk: bool)

  /** The JSON object sent back. */
  datatype Answer =
    | NoContent
    | Error(error: string)
    | HasPassword(hasPassword: bool)
    | Valid(valid: bool)
    | Message(message: string)

  datatype Reply = Reply(status: nat, answer: Answer)

  datatype Outcome = Outcome(reply: Reply, settings: Settings)

  const MinLength: nat := 4

  const TooShort: string := "Password must be at least 4 characters"
  const PasswordRequired: string := "Password is required"
  const NoPasswordSet: string := "No password set"
  const SetFailed: string := "Failed to set password"
  const ResetFailed: string := "Failed to reset password"
  const InvalidAction: string := "Invalid action"
  const InternalError: string := "Internal server error"
  const SetDone: string := "Password set successfully"
  const ResetDone: string := "Password reset successfully"

  function Field(body: Body, name: string): Option<string> {
    if name in body then Some(body[name]) else None
  }

  // ---------------------------------------------------------------------------
  // Hashing
  // ---------------------------------------------------------------------------

  /** `hashPassword`: SHA-256 of the UTF-8 bytes, as 64 lower-case hex
      digits. */
  function HashPassword(c: Crypto, password: string): (h: string)
    ensures |h| == 64 && IsHex(h)
  {
    Hex(c.sha256(Utf8(password)))
  }

  /** The hex text reads back as the digest it renders. */
  lemma HashPasswordDecodes(c: Crypto, password: string)
    ensures UnHex(HashPassword(c, password)) == c.sha256(Utf8(password))
  {
    HexRoundTrip(c.sha256(Utf8(password)));
  }

  /** Comparing hex hashes compares the digests. */
  lemma HashPasswordsAgree(c: Crypto, p: string, q: string)
    ensures HashPassword(c, p) == HashPassword(c, q) <==> c.sha256(Utf8(p)) == c.sha256(Utf8(q))
  {
    HexInjective(c.sha256(Utf8(p)), c.sha256(Utf8(q)));
  }

  // ---------------------------------------------------------------------------
  // Actions
  // ---------------------------------------------------------------------------

  /** `settings?.hidden_folder_password` when it is truthy: a row exists, the
      column is not null and not empty, and the select did not fail. */
  function StoredHash(settings: Settings, user: string, selectOk: bool): (h: Option<string>)
    ensures h.Some? <==> selectOk && user in settings && Truthy(settings[user])
    ensures h.Some? ==> settings[user] == Some(h.value)
  {
    if selectOk && user in settings && Truthy(settings[user]) then settings[user] else None
  }

  /** The guard shared by `set` and `reset`. */
  predicate Acceptable(password: Option<string>) {
    Truthy(password) && Utf16Length(password.value) >= MinLength
  }

  function Check(settings: Settings, user: string, script: Script): (o: Outcome)
    ensures o.reply.status == 200 && o.settings == settings
    ensures o.reply.answer == HasPassword(StoredHash(settings, user, script.selectOk).Some?)
  {
    Outcome(Reply(200, HasPassword(StoredHash(settings, user, script.selectOk).Some?)), settings)
  }

  /** `set` upserts on `user_id`, creating the row when there is none. */
  function Set(c: Crypto, settings: Settings, user: string, password: Option<string>, script: Script): (o: Outcome)
    ensures !Acceptable(password) ==> o == Outcome(Reply(400, Error(TooShort)), settings)
    ensures Acceptable(password) && !script.writeOk ==> o == Outcome(Reply(500, Error(SetFailed)), settings)
    ensures o.reply.status == 200 <==> Acceptable(password) && script.writeOk
    ensures o.reply.status == 200 ==>
              o.reply.answer == Message(SetDone) && user in o.settings
              && o.settings[user] == Some(HashPassword(c, password.value))
              && forall u :: u in settings && u != user ==> u in o.settings && o.settings[u] == settings[u]
    ensures o.settings.Keys <= settings.Keys + {user}
  {
    if !Acceptable(password) then Outcome(Reply(400, Error(TooShort)), settings)
    else if !script.writeOk then Outcome(Reply(500, Error(SetFailed)), settings)
    else Outcome(Reply(200, Message(SetDone)), settings[user := Some(HashPassword(c, password.value))])
  }

  /** `verify` checks only that a password was sent; it never writes. */
  function Verify(c: Crypto, settings: Settings, user: string, password: Option<string>, script: Script): (o: Outcome)
    ensures o.settings == settings
    ensures !Truthy(password) ==> o.reply == Reply(400, Error(PasswordRequired))
    ensures Truthy(password) && StoredHash(settings, user, script.selectOk).None? ==>
              o.reply == Reply(400, Error(NoPasswordSet))
    ensures o.reply.status == 200 <==> Truthy(password) && StoredHash(settings, user, script.selectOk).Some?
    ensures o.reply.status == 200 ==>
              o.reply.answer.Valid? &&
              (o.reply.answer.valid <==> Some(HashPassword(c, password.value)) == StoredHash(settings, user, script.selectOk))
  {
    if !Truthy(password) then Outcome(Reply(400, Error(PasswordRequired)), settings)
    else match StoredHash(settings, user, script.selectOk)
      case None => Outcome(Reply(400, Error(NoPasswordSet)), settings)
      case Some(stored) => Outcome(Reply(200, Valid(HashPassword(c, password.value) == stored)), settings)
  }

  /** `reset` runs an `update ... eq(user_id)`: with no row it matches nothing,
      reports no error and changes nothing. */
  function Reset(c: Crypto, settings: Settings, user: string, password: Option<string>, script: Script): (o: Outcome)
    ensures !Acceptable(password) ==> o == Outcome(Reply(400, Error(TooShort)), settings)
    ensures Acceptable(password) && !script.writeOk ==> o == Outcome(Reply(500, Error(ResetFailed)), settings)
    ensures o.reply.status == 200 <==> Acceptable(password) && script.writeOk
    ensures o.reply.status == 200 ==> o.reply.answer == Message(ResetDone)
    ensures o.settings.Keys == settings.Keys
    ensures forall u :: u in settings && u != user ==> o.settings[u] == settings[u]
    ensures o.reply.status == 200 && user in settings ==> o.settings[user] == Some(HashPassword(c, password.value))
    ensures user !in settings ==> o.settings == settings
  {
    if !Acceptable(password) then Outcome(Reply(400, Error(TooShort)), settings)
    else if !script.writeOk then Outcome(Reply(500, Error(ResetFailed)), settings)
    else if user in settings then
      Outcome(Reply(200, Message(ResetDone)), settings[user := Some(HashPassword(c, password.value))])
    else Outcome(Reply(200, Message(ResetDone)), settings)
  }

  /** The action dispatch after authentication; the body's other fields are
      never read. */
  function Dispatch(c: Crypto, settings: Settings, user: string, body: Body, script: Script): (o: Outcome)
    ensures Field(body, "action") !in {Some("check"), Some("set"), Some("verify"), Some("reset")} ==>
              o == Outcome(Reply(400, Error(InvalidAction)), settings)
  {
    var password := Field(body, "password");
    match Field(body, "action")
    case Some("check") => Check(settings, user, script)
    case Some("set") => Set(c, settings, user, password, script)
    case Some("verify") => Verify(c, settings, user, password, script)
    case Some("reset") => Reset(c, settings, user, password, script)
    case _ => Outcome(Reply(400, Error(InvalidAction)), settings)
  }

  /** The whole handler: preflight, then authentication, then the body. */
  function Handle(c: Crypto, req: Request, sessions: map<string, string>, settings: Settings, script: Script): (o: Outcome)
    ensures req.verb == Options ==> o == Outcome(Reply(200, NoContent), settings)
    ensures req.verb != Options && Authenticate(req.authorization, sessions).Refused? ==>
              o == Outcome(Reply(401, Error(Authenticate(req.authorization, sessions).error)), settings)
    ensures req.verb != Options && Authenticate(req.authorization, sessions).Authenticated? && req.body.None? ==>
              o == Outcome(Reply(500, Error(InternalError)), settings)
    ensures o.reply.status in {200, 400, 401, 500}
    ensures o.reply.status != 200 ==> o.settings == settings
    ensures o.settings != settings ==>
              var user := Authenticate(req.authorization, sessions).userId;
              o.settings.Keys <= settings.Keys + {user}
              && forall u :: u in settings && u != user ==> u in o.settings && o.settings[u] == settings[u]
  {
    if req.verb == Options then Outcome(Reply(200, NoContent), settings)
    else match Authenticate(req.authorization, sessions)
      case Refused(error) => Outcome(Reply(401, Error(error)), settings)
      case Authenticated(user) =>
        match req.body
        case None => Outcome(Reply(500, Error(InternalError)), settings)
        case Some(body) => Dispatch(c, settings, user, body, script)
  }

  // ---------------------------------------------------------------------------
  // Properties
  // ---------------------------------------------------------------------------

  /** A request with no usable header is refused before its body is looked at:
      any two bodies get the same answer. */
  lemma RefusedBeforeBody(c: Crypto, req: Request, body: Option<Body>, sessions: map<string, string>,
                          settings: Settings, script: Script)
    requires req.verb == Post && !Truthy(req.authorization)
    ensures Handle(c, req, sessions, settings, script) == Handle(c, req.(body := body), sessions, settings, script)
    ensures Handle(c, req, sessions, settings, script).reply == Reply(401, Error(NoAuthorizationHeader))
  {
  }

  function SetBody(password: string): Body {
    map["action" := "set", "password" := password]
  }

  function VerifyBody(password: string): Body {
    map["action" := "verify", "password" := password]
  }

  function ResetBody(password: string): Body {
    map["action" := "reset", "password" := password]
  }

  /** A password accepted by `set` is then accepted by `verify`. */
  lemma SetThenVerify(c: Crypto, token: string, sessions: map<string, string>, settings: Settings,
                      password: string, script: Script, later: Script)
    requires token in sessions
    requires later.selectOk
    ensures var header := Some(BearerPrefix + token);
            var s := Handle(c, Request(Post, header, Some(SetBody(password))), sessions, settings, script);
            s.reply.status == 200 ==>
              Handle(c, Request(Post, header, Some(VerifyBody(password))), sessions, s.settings, later).reply
              == Reply(200, Valid(true))
  {
    AuthenticateWithSession(token, sessions);
    var h := HashPassword(c, password);
    assert h != "" by { assert |h| == 64; }
  }

  /** After `set`, `verify` accepts exactly the passwords with the same
      SHA-256 digest. */
  lemma VerifyAfterSet(c: Crypto, settings: Settings, user: string, p: string, q: string, script: Script, later: Script)
    requires later.selectOk
    requires Set(c, settings, user, Some(p), script).reply.status == 200
    ensures var s := Set(c, settings, user, Some(p), script).settings;
            q != "" ==> Verify(c, s, user, Some(q), later).reply
                        == Reply(200, Valid(c.sha256(Utf8(q)) == c.sha256(Utf8(p))))
  {
    HashPasswordsAgree(c, q, p);
    var h := HashPassword(c, p);
    assert h != "" by { assert |h| == 64; }
  }

  /** `reset` never consults the stored hash: users with rows holding any two
      values get the same reply. */
  lemma ResetIgnoresStoredHash(c: Crypto, settings: Settings, user: string, previous: Option<string>,
                               password: Option<string>, script: Script)
    ensures Reset(c, settings, user, password, script).reply
            == Reset(c, settings[user := previous], user, password, script).reply
  {
  }

  /** A user without a row gets a success reply from `reset` and still has no
      password. */
  lemma ResetWithoutRow(c: Crypto, settings: Settings, user: string, password: string, script: Script)
    requires user !in settings
    requires Acceptable(Some(password)) && script.writeOk
    ensures Reset(c, settings, user, Some(password), script) == Outcome(Reply(200, Message(ResetDone)), settings)
    ensures StoredHash(Reset(c, settings, user, Some(password), script).settings, user, true).None?
  {
  }

  /** A reset body without a `password` field is always refused, whatever
      else it carries. */
  lemma ResetNeedsPasswordField(c: Crypto, settings: Settings, user: string, body: Body, script: Script)
    requires Field(body, "action") == Some("reset") && "password" !in body
    ensures Dispatch(c, settings, user, body, script) == Outcome(Reply(400, Error(TooShort)), settings)
  {
  }
}

=== FILE: rename_image.dfy ===
/** The `rename-image` edge function: validate the body, authenticate,
    look the image up among the caller's own rows, read the S3
    configuration, copy the object to its new key (fatal on failure), delete
    the old object (failure only logged), then update the row. The database
    is a map from image id to row; the outcomes of the lookup, the two S3
    requests and the update are scripted; the two clock reads are inputs. */
module RenameImage {
  import opened Wrappers
  import opened Text
  import opened Bytes
  import opened Sorting
  import opened SigV4
  import opened RenameKeys
  import opened Edge

  datatype ImageRow = ImageRow(userId: string, filename: string, url: string, tags: seq<string>)

  /** The destructured JSON body; `None` for an absent field. */
  datatype RenameBody = RenameBody(imageId: Option<string>, newFilename: Option<string>)

  /** `body` is `None` when `req.json()` throws. */
  datatype Request = Request(verb: Method, authorization: Option<string>, body: Option<RenameBody>)

  /** A `fetch` either answers with a status (only `ok` is read) or rejects. */
  datatype Fetch = Answered(ok: bool) | Rejected

  /** How the external calls turn out: the owner-scoped lookup query, the S3
      copy, the S3 delete and the row update. */
  datatype Script = Script(lookupOk: bool, copy: Fetch, delete: Fetch, updateOk: bool)

  /** `Date.now()` and `new Date().toISOString()`, read once each. */
  datatype Clock = Clock(nowMs: nat, iso: string)

  /** A request sent to S3 as the handler builds it: the verb, the URL, the
      key and headers it signs, and the signing context. The `Authorization`
      header is computed from these by `WireHeaders`. */
  datatype S3Call = S3Call(verb: string, url: string, key: string, signed: seq<Header>, ctx: SigningContext)

  /** Status and the `error` (or `message`) text of the JSON reply, plus the
      updated row a successful rename returns. */
  datatype Reply = Reply(status: nat, text: string, updated: Option<ImageRow>)

  /** The reply, the S3 requests in the order they were issued, and the table
      afterwards. */
  datatype Outcome = Outcome(reply: Reply, calls: seq<S3Call>, images: map<string, ImageRow>)

  const MissingFields: string := "Missing imageId or newFilename"
  const ImageNotFound: string := "Image not found"
  const NotConfigured: string := "AWS credentials not configured"
  const CopyFailed: string := "Failed to copy file in S3"
  const UpdateFailed: string := "Failed to update image metadata"
  const InternalError: string := "Internal server error"
  const RenameSuccessful: string := "Rename successful"

  function Fail(status: nat, text: string, calls: seq<S3Call>, images: map<string, ImageRow>): Outcome {
    Outcome(Reply(status, text, None), calls, images)
  }

  // ---------------------------------------------------------------------------
  // The signed S3 requests
  // ---------------------------------------------------------------------------

  const HostHeader: string := "host"
  const AmzPrefix: string := "x-amz-"
  const CopySourceHeader: string := AmzPrefix + "copy-source"
  const DateHeader: string := AmzPrefix + "date"
  const ContentSha256Header: string := AmzPrefix + "content-sha256"

  /** The headers signed for the server-side copy, in the order written. */
  function CopyHeaders(cfg: Config, oldKey: string, amzDate: string): seq<Header> {
    [Header(HostHeader, Host(cfg.bucket, cfg.region)),
     Header(CopySourceHeader, "/" + cfg.bucket + "/" + oldKey),
     Header(DateHeader, amzDate),
     Header(ContentSha256Header, UnsignedPayload)]
  }

  /** The headers signed for the delete of the old object. */
  function DeleteHeaders(cfg: Config, amzDate: string): seq<Header> {
    [Header(HostHeader, Host(cfg.bucket, cfg.region)),
     Header(DateHeader, amzDate),
     Header(ContentSha256Header, UnsignedPayload)]
  }

  function Context(cfg: Config, amzDate: string): SigningContext {
    SigningContext(cfg.accessKeyId, cfg.secretAccessKey, cfg.region, amzDate)
  }

  /** The headers actually sent: the signed ones followed by
      `Authorization`, which is not itself signed. */
  function WireHeaders(c: Crypto, call: S3Call): (hs: seq<Header>)
    ensures |hs| == |call.signed| + 1 && hs[..|call.signed|] == call.signed
    ensures hs[|call.signed|].name == "Authorization"
    ensures hs[|call.signed|].value == GetSignature(c, call.ctx, call.verb, call.key, call.signed).authorization
  {
    call.signed + [Header("Authorization", GetSignature(c, call.ctx, call.verb, call.key, call.signed).authorization)]
  }

  /** The server-side copy: a PUT of the new key whose `x-amz-copy-source`
      names the old one. */
  function CopyCall(cfg: Config, row: ImageRow, newFilename: string, clock: Clock): S3Call {
    var newKey := NewKey(clock.nowMs, newFilename);
    var amzDate := AmzDate(clock.iso);
    S3Call("PUT", NewUrl(cfg.bucket, cfg.region, newKey), newKey,
           CopyHeaders(cfg, KeyText(OldKey(row.url)), amzDate), Context(cfg, amzDate))
  }

  /** The delete of the old key, at the URL built the same way as the new one. */
  function DeleteCall(cfg: Config, row: ImageRow, clock: Clock): S3Call {
    var oldKey := KeyText(OldKey(row.url));
    var amzDate := AmzDate(clock.iso);
    S3Call("DELETE", NewUrl(cfg.bucket, cfg.region, oldKey), oldKey, DeleteHeaders(cfg, amzDate), Context(cfg, amzDate))
  }

  /** The row after a successful rename. */
  function Renamed(cfg: Config, row: ImageRow, newFilename: string, clock: Clock): ImageRow {
    row.(filename := newFilename,
         url := NewUrl(cfg.bucket, cfg.region, NewKey(clock.nowMs, newFilename)),
         tags := Tags(newFilename))
  }

  // ---------------------------------------------------------------------------
  // The handler
  // ---------------------------------------------------------------------------

  /** Everything after the configuration check: copy, delete, update. */
  function Transfer(cfg: Config, id: string, row: ImageRow, newFilename: string,
                    images: map<string, ImageRow>, clock: Clock, script: Script): (o: Outcome)
    requires id in images && images[id] == row
    ensures 1 <= |o.calls| <= 2 && o.calls[0] == CopyCall(cfg, row, newFilename, clock)
    ensures |o.calls| == 2 <==> script.copy == Answered(true)
    ensures |o.calls| == 2 ==> o.calls[1] == DeleteCall(cfg, row, clock)
    ensures o.reply.status == 200 <==> script.copy == Answered(true) && script.delete.Answered? && script.updateOk
    ensures o.reply.status != 200 ==> o.reply.status == 500 && o.images == images && o.reply.updated.None?
    ensures o.reply.status == 200 ==> o.reply.updated == Some(Renamed(cfg, row, newFilename, clock))
                                      && o.images == images[id := Renamed(cfg, row, newFilename, clock)]
  {
    var copy := CopyCall(cfg, row, newFilename, clock);
    match script.copy
    case Rejected => Fail(500, InternalError, [copy], images)
    case Answered(ok) =>
      if !ok then Fail(500, CopyFailed, [copy], images)
      else
        var delete := DeleteCall(cfg, row, clock);
        if script.delete.Rejected? then Fail(500, InternalError, [copy, delete], images)
        else if !script.updateOk then Fail(500, UpdateFailed, [copy, delete], images)
        else
          var row' := Renamed(cfg, row, newFilename, clock);
          Outcome(Reply(200, RenameSuccessful, Some(row')), [copy, delete], images[id := row'])
  }

  /** Where the checks before the copy leave the request: stopped with a
      reply, or through to the transfer with the configuration, the row and
      the new file name. */
  datatype Stage = Stop(reply: Reply) | Proceed(cfg: Config, id: string, row: ImageRow, newFilename: string)

  /** The checks in the order the handler makes them: preflight, body,
      fields, authentication, owner-scoped lookup, configuration. */
  function Admit(req: Request, env: Env, sessions: map<string, string>,
                 images: map<string, ImageRow>, lookupOk: bool): (s: Stage)
    ensures s.Stop? ==> s.reply.status in {200, 400, 401, 404, 500} && s.reply.updated.None?
    ensures s.Proceed? ==> s.id in images && s.row == images[s.id]
  {
    if req.verb.Options? then Stop(Reply(200, "", None))
    else match req.body
    case None => Stop(Reply(500, InternalError, None))
    case Some(body) =>
      if !Truthy(body.imageId) || !Truthy(body.newFilename) then Stop(Reply(400, MissingFields, None))
      else match Authenticate(req.authorization, sessions)
      case Refused(error) => Stop(Reply(401, error, None))
      case Authenticated(user) =>
        var id := body.imageId.value;
        if !lookupOk || id !in images || images[id].userId != user then Stop(Reply(404, ImageNotFound, None))
        else match Configure(env)
        case None => Stop(Reply(500, NotConfigured, None))
        case Some(cfg) => Proceed(cfg, id, images[id], body.newFilename.value)
  }

  /** The handler. Every exit before the copy issues no S3 request and leaves
      the table alone; only a 200 changes the table, and then only the
      renamed row. */
  function Rename(req: Request, env: Env, sessions: map<string, string>,
                  images: map<string, ImageRow>, clock: Clock, script: Script): (o: Outcome)
    ensures o.reply.status in {200, 400, 401, 404, 500}
    ensures o.reply.status != 200 ==> o.images == images
    ensures o.images.Keys == images.Keys
    ensures |o.calls| <= 2
    ensures o.reply.status in {400, 401, 404} ==> o.calls == []
  {
    match Admit(req, env, sessions, images, script.lookupOk)
    case Stop(reply) => Outcome(reply, [], images)
    case Proceed(cfg, id, row, newFilename) => Transfer(cfg, id, row, newFilename, images, clock, script)
  }

  // ---------------------------------------------------------------------------
  // Failure policy
  // ---------------------------------------------------------------------------

  /** A request that gets as far as the row lookup: a POST with a parsed
      body carrying both fields, from an authenticated user. */
  predicate Admitted(req: Request, sessions: map<string, string>) {
    && req.verb.Post? && req.body.Some?
    && Truthy(req.body.value.imageId) && Truthy(req.body.value.newFilename)
    && Authenticate(req.authorization, sessions).Authenticated?
  }

  /** The caller owns an image with the requested id and the lookup succeeds. */
  predicate Owned(req: Request, sessions: map<string, string>, images: map<string, ImageRow>, script: Script)
    requires Admitted(req, sessions)
  {
    var id := req.body.value.imageId.value;
    script.lookupOk && id in images && images[id].userId == Authenticate(req.authorization, sessions).userId
  }

  /** Missing fields are answered with 400 before authentication is looked at. */
  lemma MissingFieldsRejected(req: Request, env: Env, sessions: map<string, string>,
                              images: map<string, ImageRow>, clock: Clock, script: Script)
    requires req.verb.Post? && req.body.Some?
    requires !Truthy(req.body.value.imageId) || !Truthy(req.body.value.newFilename)
    ensures Rename(req, env, sessions, images, clock, script) == Fail(400, MissingFields, [], images)
  {
  }

  /** With both fields present, the 401s are exactly the refused credentials. */
  lemma UnauthenticatedRejected(req: Request, env: Env, sessions: map<string, string>,
                                images: map<string, ImageRow>, clock: Clock, script: Script)
    requires req.verb.Post? && req.body.Some?
    requires Truthy(req.body.value.imageId) && Truthy(req.body.value.newFilename)
    ensures Rename(req, env, sessions, images, clock, script).reply.status == 401
            <==> !Authenticate(req.authorization, sessions).Authenticated?
    ensures !Truthy(req.authorization) ==>
              Rename(req, env, sessions, images, clock, script) == Fail(401, NoAuthorizationHeader, [], images)
  {
  }

  /** The lookup is scoped to the caller: another user's image is "not
      found", exactly as a missing one, and nothing is sent to S3. */
  lemma LookupIsOwnerScoped(req: Request, env: Env, sessions: map<string, string>,
                            images: map<string, ImageRow>, clock: Clock, script: Script)
    requires Admitted(req, sessions)
    ensures Rename(req, env, sessions, images, clock, script).reply.status == 404 <==> !Owned(req, sessions, images, script)
    ensures !Owned(req, sessions, images, script) ==>
              Rename(req, env, sessions, images, clock, script) == Fail(404, ImageNotFound, [], images)
  {
  }

  /** Missing credentials stop the rename before any S3 request. */
  lemma UnconfiguredRejected(req: Request, env: Env, sessions: map<string, string>,
                             images: map<string, ImageRow>, clock: Clock, script: Script)
    requires Admitted(req, sessions) && Owned(req, sessions, images, script)
    requires Configure(env).None?
    ensures Rename(req, env, sessions, images, clock, script) == Fail(500, NotConfigured, [], images)
  {
  }

  /** The S3 requests a configured, owned rename issues; `cfg` and `row` are
      what the handler read. */
  predicate Reaches(req: Request, env: Env, sessions: map<string, string>, images: map<string, ImageRow>,
                    script: Script, cfg: Config, id: string, row: ImageRow)
  {
    && Admitted(req, sessions) && Owned(req, sessions, images, script)
    && Configure(env) == Some(cfg)
    && id == req.body.value.imageId.value && id in images && row == images[id]
  }

  /** A copy that S3 refuses is fatal: 500, no delete, no update. */
  lemma CopyFailureIsFatal(req: Request, env: Env, sessions: map<string, string>,
                           images: map<string, ImageRow>, clock: Clock, script: Script,
                           cfg: Config, id: string, row: ImageRow)
    requires Reaches(req, env, sessions, images, script, cfg, id, row)
    requires script.copy == Answered(false)
    ensures Rename(req, env, sessions, images, clock, script)
            == Fail(500, CopyFailed, [CopyCall(cfg, row, req.body.value.newFilename.value, clock)], images)
  {
  }

  /** The delete's status is never acted on: a refused delete and an
      accepted one lead to the same reply, requests and table. */
  lemma DeleteOutcomeIgnored(req: Request, env: Env, sessions: map<string, string>,
                             images: map<string, ImageRow>, clock: Clock, script: Script)
    ensures Rename(req, env, sessions, images, clock, script.(delete := Answered(false)))
            == Rename(req, env, sessions, images, clock, script.(delete := Answered(true)))
  {
    match Admit(req, env, sessions, images, script.lookupOk)
    case Stop(_) =>
    case Proceed(cfg, id, row, newFilename) =>
      TransferIgnoresDelete(cfg, id, row, newFilename, images, clock, script);
  }

  lemma TransferIgnoresDelete(cfg: Config, id: string, row: ImageRow, newFilename: string,
                              images: map<string, ImageRow>, clock: Clock, script: Script)
    requires id in images && images[id] == row
    ensures Transfer(cfg, id, row, newFilename, images, clock, script.(delete := Answered(false)))
            == Transfer(cfg, id, row, newFilename, images, clock, script.(delete := Answered(true)))
  {
  }

  /** A failed row update is reported after both S3 requests went out: the
      object has moved but the row still points at the old URL. */
  lemma UpdateFailureAfterStorage(req: Request, env: Env, sessions: map<string, string>,
                                  images: map<string, ImageRow>, clock: Clock, script: Script,
                                  cfg: Config, id: string, row: ImageRow)
    requires Reaches(req, env, sessions, images, script, cfg, id, row)
    requires script.copy == Answered(true) && script.delete.Answered? && !script.updateOk
    ensures var o := Rename(req, env, sessions, images, clock, script);
            o == Fail(500, UpdateFailed, [CopyCall(cfg, row, req.body.value.newFilename.value, clock),
                                          DeleteCall(cfg, row, clock)], images)
            && o.images[id].url == row.url
  {
  }

  /** The successful rename: the object is copied to the new key and the old
      one deleted, and exactly the renamed row changes, to the new name, the
      new URL and the tags derived from the new name. */
  lemma RenameSucceeds(req: Request, env: Env, sessions: map<string, string>,
                       images: map<string, ImageRow>, clock: Clock, script: Script,
                       cfg: Config, id: string, row: ImageRow)
    requires Reaches(req, env, sessions, images, script, cfg, id, row)
    requires script.copy == Answered(true) && script.delete.Answered? && script.updateOk
    ensures var name := req.body.value.newFilename.value;
            var o := Rename(req, env, sessions, images, clock, script);
            && o.reply.status == 200 && o.reply.text == RenameSuccessful
            && o.calls == [CopyCall(cfg, row, name, clock), DeleteCall(cfg, row, clock)]
            && o.images[id] == ImageRow(row.userId, name, NewUrl(cfg.bucket, cfg.region, NewKey(clock.nowMs, name)), Tags(name))
            && (forall other :: other in images && other != id ==> o.images[other] == images[other])
            && o.reply.updated == Some(o.images[id])
  {
  }

  // ---------------------------------------------------------------------------
  // The two signed requests
  // ---------------------------------------------------------------------------

  /** `host;x-amz-content-sha256;x-amz-copy-source;x-amz-date`. */
  const CopySignedHeaders: string := HostHeader + ";" + ContentSha256Header + ";" + CopySourceHeader + ";" + DateHeader

  /** `host;x-amz-content-sha256;x-amz-date`. */
  const DeleteSignedHeaders: string := HostHeader + ";" + ContentSha256Header + ";" + DateHeader

  /** The ordinal order of the four header names. */
  lemma HeaderNamesOrdered()
    ensures Below(HostHeader, ContentSha256Header)
    ensures Below(ContentSha256Header, CopySourceHeader)
    ensures Below(CopySourceHeader, DateHeader)
  {
    BelowSharedPrefix(AmzPrefix, "content-sha256", "copy-source");
    BelowSharedPrefix(AmzPrefix, "copy-source", "date");
  }

  /** The four names are header names and pairwise different. */
  lemma HeaderNamesWellFormed()
    ensures IsHeaderName(HostHeader) && IsHeaderName(CopySourceHeader)
    ensures IsHeaderName(DateHeader) && IsHeaderName(ContentSha256Header)
    ensures HostHeader != ContentSha256Header && HostHeader != CopySourceHeader && HostHeader != DateHeader
    ensures ContentSha256Header != CopySourceHeader && ContentSha256Header != DateHeader
    ensures CopySourceHeader != DateHeader
  {
    HeaderNamesOrdered();
    BelowTransitive(HostHeader, ContentSha256Header, CopySourceHeader);
    BelowTransitive(HostHeader, CopySourceHeader, DateHeader);
    BelowTransitive(ContentSha256Header, CopySourceHeader, DateHeader);
    BelowIrreflexive(HostHeader);
    BelowIrreflexive(ContentSha256Header);
    BelowIrreflexive(CopySourceHeader);
  }

  lemma CopyHeadersWellFormed(cfg: Config, oldKey: string, amzDate: string)
    ensures WellFormedHeaders(CopyHeaders(cfg, oldKey, amzDate))
  {
    HeaderNamesWellFormed();
  }

  lemma DeleteHeadersWellFormed(cfg: Config, amzDate: string)
    ensures WellFormedHeaders(DeleteHeaders(cfg, amzDate))
  {
    HeaderNamesWellFormed();
  }

  lemma CopySignedNames(cfg: Config, oldKey: string, amzDate: string)
    ensures SignedHeaders(CopyHeaders(cfg, oldKey, amzDate))
            == Join([HostHeader, ContentSha256Header, CopySourceHeader, DateHeader], ";")
  {
    var hs := CopyHeaders(cfg, oldKey, amzDate);
    var sorted := [hs[0], hs[3], hs[1], hs[2]];
    HeaderNamesOrdered();
    CopyHeadersWellFormed(cfg, oldKey, amzDate);
    SortedByChain(sorted, NameOf);
    assert forall h :: h in sorted <==> h in hs;
    SignedHeadersOfArrangement(hs, sorted);
    assert MapSeq(NameOf, sorted) == [HostHeader, ContentSha256Header, CopySourceHeader, DateHeader];
  }

  /** The copy signs four headers, in this order. */
  lemma CopySignedHeaderList(cfg: Config, oldKey: string, amzDate: string)
    ensures SignedHeaders(CopyHeaders(cfg, oldKey, amzDate)) == CopySignedHeaders
  {
    CopySignedNames(cfg, oldKey, amzDate);
    JoinFour(HostHeader, ContentSha256Header, CopySourceHeader, DateHeader, ";");
  }

  lemma DeleteSignedNames(cfg: Config, amzDate: string)
    ensures SignedHeaders(DeleteHeaders(cfg, amzDate)) == Join([HostHeader, ContentSha256Header, DateHeader], ";")
  {
    var hs := DeleteHeaders(cfg, amzDate);
    var sorted := [hs[0], hs[2], hs[1]];
    HeaderNamesOrdered();
    DeleteHeadersWellFormed(cfg, amzDate);
    BelowTransitive(ContentSha256Header, CopySourceHeader, DateHeader);
    SortedByChain(sorted, NameOf);
    assert forall h :: h in sorted <==> h in hs;
    SignedHeadersOfArrangement(hs, sorted);
    assert MapSeq(NameOf, sorted) == [HostHeader, ContentSha256Header, DateHeader];
  }

  /** The delete signs three headers, in this order. */
  lemma DeleteSignedHeaderList(cfg: Config, amzDate: string)
    ensures SignedHeaders(DeleteHeaders(cfg, amzDate)) == DeleteSignedHeaders
  {
    DeleteSignedNames(cfg, amzDate);
    JoinThree(HostHeader, ContentSha256Header, DateHeader, ";");
  }

  lemma JoinFour(a: string, b: string, c: string, d: string, sep: string)
    ensures Join([a, b, c, d], sep) == a + sep + b + sep + c + sep + d
  {
    assert [a, b, c, d][1..] == [b, c, d];
    JoinThree(b, c, d, sep);
  }

  /** Both requests are signed with the one `amzDate` read from the clock:
      they share the signing context (so the same credential scope and
      signing key) and carry the same `x-amz-date` header. */
  lemma CopyAndDeleteShareTimestamp(cfg: Config, row: ImageRow, newFilename: string, clock: Clock)
    ensures var copy := CopyCall(cfg, row, newFilename, clock);
            var delete := DeleteCall(cfg, row, clock);
            && copy.ctx == delete.ctx == Context(cfg, AmzDate(clock.iso))
            && copy.signed[2] == delete.signed[1] == Header("x-amz-date", AmzDate(clock.iso))
  {
  }

  /** From an ISO timestamp, the credential scope of both requests is
      `YYYYMMDD/<region>/s3/aws4_request`. */
  lemma ScopeFromIsoTimestamp(cfg: Config, iso: string)
    requires IsIsoTimestamp(iso)
    ensures CredentialScope(DateStamp(AmzDate(iso)), cfg.region)
            == iso[0..4] + iso[5..7] + iso[8..10] + "/" + cfg.region + "/s3/aws4_request"
  {
    AmzDateOfIsoTimestamp(iso);
  }

  /** The URL a rename stores gives the next rename the key this one wrote,
      so renaming twice deletes the object the first rename created. */
  lemma RenamedRowYieldsNewKey(cfg: Config, row: ImageRow, newFilename: string, clock: Clock)
    requires '/' !in cfg.bucket && '/' !in cfg.region
    requires !Contains(NewKey(clock.nowMs, newFilename), UrlKeyMarker)
    ensures OldKey(Renamed(cfg, row, newFilename, clock).url) == Some(NewKey(clock.nowMs, newFilename))
  {
    OldKeyOfNewUrl(cfg.bucket, cfg.region, NewKey(clock.nowMs, newFilename));
  }
}

=== FILE: rename_keys.dfy ===
/** The pure string work of the rename handler: the signing timestamp, the
    old and new object keys, the public URL, the configuration read from the
    environment, and the tags derived from the new file name. */
module RenameKeys {
  import opened Wrappers
  import opened Text
  import opened Sorting

  // ---------------------------------------------------------------------------
  // Signing timestamp
  // ---------------------------------------------------------------------------

  /** `toISOString().replace(/[:\-]|\.\d{3}/g, '')`: scanning left to right,
      drop every `:` and `-`, and every `.` followed by three digits together
      with those digits. */
  function AmzDate(iso: string): (r: string)
    ensures |r| <= |iso|
    ensures ':' !in r && '-' !in r
    decreases |iso|
  {
    if |iso| == 0 then ""
    else if iso[0] == ':' || iso[0] == '-' then AmzDate(iso[1..])
    else if iso[0] == '.' && |iso| >= 4 && IsDigit(iso[1]) && IsDigit(iso[2]) && IsDigit(iso[3]) then AmzDate(iso[4..])
    else [iso[0]] + AmzDate(iso[1..])
  }

  /** The shape `Date.prototype.toISOString` produces for years 0000-9999:
      `YYYY-MM-DDTHH:MM:SS.sssZ`. */
  predicate IsIsoTimestamp(s: string) {
    && |s| == 24
    && AllDigits(s[0..4]) && s[4] == '-' && AllDigits(s[5..7]) && s[7] == '-' && AllDigits(s[8..10])
    && s[10] == 'T' && AllDigits(s[11..13]) && s[13] == ':' && AllDigits(s[14..16]) && s[16] == ':'
    && AllDigits(s[17..19]) && s[19] == '.' && AllDigits(s[20..23]) && s[23] == 'Z'
  }

  lemma {:induction false} AmzDateAppend(a: string, b: string)
    requires '.' !in a
    ensures AmzDate(a + b) == AmzDate(a) + AmzDate(b)
    decreases |a|
  {
    if |a| == 0 {
      assert a + b == b;
    } else {
      assert (a + b)[0] == a[0];
      assert (a + b)[1..] == a[1..] + b;
      AmzDateAppend(a[1..], b);
    }
  }

  lemma {:induction false} AmzDateKeepsPlain(a: string)
    requires forall i :: 0 <= i < |a| ==> a[i] != ':' && a[i] != '-' && a[i] != '.'
    ensures AmzDate(a) == a
    decreases |a|
  {
    if |a| > 0 {
      AmzDateKeepsPlain(a[1..]);
      assert a == [a[0]] + a[1..];
    }
  }

  /** A punctuation-free run `s[k..m]` passes through unchanged. */
  lemma AmzDateKeep(s: string, k: nat, m: nat)
    requires k <= m <= |s|
    requires forall i :: k <= i < m ==> s[i] != ':' && s[i] != '-' && s[i] != '.'
    ensures AmzDate(s[k..]) == s[k..m] + AmzDate(s[m..])
  {
    assert '.' !in s[k..m] by {
      forall i | 0 <= i < m - k ensures s[k..m][i] != '.' {
        assert s[k..m][i] == s[k + i];
      }
    }
    assert s[k..] == s[k..m] + s[m..];
    AmzDateAppend(s[k..m], s[m..]);
    AmzDateKeepsPlain(s[k..m]);
  }

  lemma DigitsArePlain(s: string, k: nat, m: nat)
    requires k <= m <= |s| && AllDigits(s[k..m])
    ensures forall i :: k <= i < m ==> s[i] != ':' && s[i] != '-' && s[i] != '.'
  {
    forall i | k <= i < m
      ensures s[i] != ':' && s[i] != '-' && s[i] != '.'
    {
      assert s[i] == s[k..m][i - k];
    }
  }

  /** A `:` or `-` is dropped. */
  lemma AmzDateSkip(s: string, k: nat)
    requires k < |s| && (s[k] == ':' || s[k] == '-')
    ensures AmzDate(s[k..]) == AmzDate(s[k + 1..])
  {
    assert s[k..][1..] == s[k + 1..];
  }

  /** A run of digits passes through unchanged. */
  lemma AmzDateDigits(s: string, k: nat, m: nat)
    requires k <= m <= |s| && AllDigits(s[k..m])
    ensures AmzDate(s[k..]) == s[k..m] + AmzDate(s[m..])
  {
    DigitsArePlain(s, k, m);
    AmzDateKeep(s, k, m);
  }

  /** The milliseconds `.sss` are dropped, leaving the final `Z`. */
  lemma AmzDateOfFraction(iso: string)
    requires IsIsoTimestamp(iso)
    ensures AmzDate(iso[19..]) == "Z"
  {
    var f := iso[19..];
    assert f[0] == '.' && |f| == 5;
    assert IsDigit(f[1]) && IsDigit(f[2]) && IsDigit(f[3]) by {
      assert f[1..4] == iso[20..23];
    }
    assert f[4..] == "Z";
  }

  /** The time part `HH:MM:SS.sssZ` (from offset 11) becomes `HHMMSSZ`. */
  lemma AmzDateOfIsoTime(iso: string)
    requires IsIsoTimestamp(iso)
    ensures AmzDate(iso[11..]) == iso[11..13] + (iso[14..16] + (iso[17..19] + "Z"))
  {
    calc {
      AmzDate(iso[11..]);
    == { AmzDateDigits(iso, 11, 13); }
      iso[11..13] + AmzDate(iso[13..]);
    == { AmzDateSkip(iso, 13); AmzDateDigits(iso, 14, 16); }
      iso[11..13] + (iso[14..16] + AmzDate(iso[16..]));
    == { AmzDateSkip(iso, 16); AmzDateDigits(iso, 17, 19); }
      iso[11..13] + (iso[14..16] + (iso[17..19] + AmzDate(iso[19..])));
    == { AmzDateOfFraction(iso); }
      iso[11..13] + (iso[14..16] + (iso[17..19] + "Z"));
    }
  }

  /** The date part `YYYY-MM-DDT` becomes `YYYYMMDDT`, followed by the time. */
  lemma AmzDateOfIsoDate(iso: string)
    requires IsIsoTimestamp(iso)
    ensures AmzDate(iso) == iso[0..4] + (iso[5..7] + (iso[8..11] + AmzDate(iso[11..])))
  {
    forall i | 8 <= i < 11
      ensures iso[i] != ':' && iso[i] != '-' && iso[i] != '.'
    {
      if i < 10 {
        assert iso[i] == iso[8..10][i - 8];
      }
    }
    calc {
      AmzDate(iso);
    == { assert iso[0..] == iso; AmzDateDigits(iso, 0, 4); }
      iso[0..4] + AmzDate(iso[4..]);
    == { AmzDateSkip(iso, 4); AmzDateDigits(iso, 5, 7); }
      iso[0..4] + (iso[5..7] + AmzDate(iso[7..]));
    == { AmzDateSkip(iso, 7); AmzDateKeep(iso, 8, 11); }
      iso[0..4] + (iso[5..7] + (iso[8..11] + AmzDate(iso[11..])));
    }
  }

  /** From an ISO timestamp the handler obtains the 16-character basic format
      `YYYYMMDDTHHMMSSZ`, and the date stamp is its first eight characters
      `YYYYMMDD`. */
  lemma AmzDateOfIsoTimestamp(iso: string)
    requires IsIsoTimestamp(iso)
    ensures AmzDate(iso) == iso[0..4] + (iso[5..7] + (iso[8..11] + (iso[11..13] + (iso[14..16] + (iso[17..19] + "Z")))))
    ensures |AmzDate(iso)| == 16
    ensures Take(AmzDate(iso), 8) == iso[0..4] + (iso[5..7] + iso[8..10])
  {
    AmzDateOfIsoDate(iso);
    AmzDateOfIsoTime(iso);
    var d := AmzDate(iso);
    var date := iso[0..4] + (iso[5..7] + iso[8..10]);
    assert d[..8] == date by {
      forall i | 0 <= i < 8 ensures d[i] == date[i] {
        if i < 4 { assert d[i] == iso[i]; }
        else if i < 6 { assert d[i] == iso[i + 1]; }
        else { assert d[i] == iso[i + 2]; }
      }
    }
  }

  // ---------------------------------------------------------------------------
  // Object keys and URLs
  // ---------------------------------------------------------------------------

  const UrlKeyMarker: string := ".com/"

  /** `url.split('.com/')[1]`: the segment after the first `.com/`, up to the
      next `.com/` or the end; absent (`undefined`) when there is none. */
  function OldKey(url: string): (r: Option<string>)
    ensures r.None? <==> !Contains(url, UrlKeyMarker)
    ensures r.Some? ==> exists i: nat :: i + 5 <= |url| && OccursAt(url, UrlKeyMarker, i)
                          && (forall j: nat :: j < i ==> !OccursAt(url, UrlKeyMarker, j))
                          && r.value <= url[i + 5..]
    ensures r.Some? ==> !Contains(r.value, UrlKeyMarker)
  {
    var parts := Split(url, UrlKeyMarker);
    SplitPiecesAvoidSeparator(url, UrlKeyMarker);
    match IndexOf(url, UrlKeyMarker, 0)
    case None => None
    case Some(i) =>
      var tail := url[i + 5..];
      assert parts == [url[..i]] + Split(tail, UrlKeyMarker);
      SplitThenJoin(tail, UrlKeyMarker);
      var rest := Split(tail, UrlKeyMarker);
      assert parts[1] == rest[0];
      assert rest[0] <= tail by {
        if |rest| > 1 {
          assert Join(rest, UrlKeyMarker) == rest[0] + UrlKeyMarker + Join(rest[1..], UrlKeyMarker);
        }
      }
      Some(parts[1])
  }

  /** The old key is exactly the text between the first `.com/` and the next
      one (or the end of the URL). */
  lemma OldKeyIsSegment(url: string, i: nat, tail: string, k: nat)
    requires OccursAt(url, UrlKeyMarker, i) && tail == url[i + 5..]
    requires forall j: nat :: j < i ==> !OccursAt(url, UrlKeyMarker, j)
    requires k <= |tail| && (k == |tail| || OccursAt(tail, UrlKeyMarker, k))
    requires forall j: nat :: j < k ==> !OccursAt(tail, UrlKeyMarker, j)
    ensures OldKey(url) == Some(tail[..k])
  {
    IndexOfFinds(url, UrlKeyMarker, 0, i);
    var parts := Split(url, UrlKeyMarker);
    assert parts == [url[..i]] + Split(tail, UrlKeyMarker);
    if k == |tail| {
      assert IndexOf(tail, UrlKeyMarker, 0).None?;
      assert Split(tail, UrlKeyMarker) == [tail];
    } else {
      IndexOfFinds(tail, UrlKeyMarker, 0, k);
      assert Split(tail, UrlKeyMarker) == [tail[..k]] + Split(tail[k + 5..], UrlKeyMarker);
    }
    assert parts[1] == tail[..k];
  }

  /** How a template literal renders `oldKey`: `undefined` when absent. */
  function KeyText(k: Option<string>): string {
    match k
    case Some(s) => s
    case None => "undefined"
  }

  /** `${timestamp}-${newFilename}`: the file name is used verbatim. */
  function NewKey(timestamp: nat, newFilename: string): string {
    NatToDecimal(timestamp) + "-" + newFilename
  }

  /** Reads a key of the form `<decimal>-<name>` back into its parts. */
  function ParseNewKey(key: string): Option<(nat, string)> {
    match IndexOf(key, "-", 0)
    case None => None
    case Some(i) => if AllDigits(key[..i]) then Some((DecimalValue(key[..i]), key[i + 1..])) else None
  }

  /** A new key carries its timestamp and the untouched file name, even when
      the file name itself contains `-`. */
  lemma NewKeyRoundTrip(timestamp: nat, newFilename: string)
    ensures ParseNewKey(NewKey(timestamp, newFilename)) == Some((timestamp, newFilename))
  {
    var d := NatToDecimal(timestamp);
    var key := NewKey(timestamp, newFilename);
    forall j: nat | j < |d|
      ensures !OccursAt(key, "-", j)
    {
      assert key[j..j + 1][0] == key[j] == d[j];
      assert IsDigit(d[j]);
    }
    assert OccursAt(key, "-", |d|);
    assert key[..|d|] == d;
    DecimalRoundTrip(timestamp);
  }

  /** `${bucket}.s3.${region}.amazonaws.com`. */
  function Host(bucket: string, region: string): string {
    bucket + ".s3." + region + ".amazonaws.com"
  }

  function NewUrl(bucket: string, region: string, key: string): string {
    "https://" + Host(bucket, region) + "/" + key
  }

  /** The URL stored by one rename yields the new key to the next rename,
      provided the bucket and region contain no `/` and the key no `.com/`. */
  lemma OldKeyOfNewUrl(bucket: string, region: string, key: string)
    requires '/' !in bucket && '/' !in region
    requires !Contains(key, UrlKeyMarker)
    ensures OldKey(NewUrl(bucket, region, key)) == Some(key)
  {
    var host := Host(bucket, region);
    var url := NewUrl(bucket, region, key);
    var p := |host| + 4;
    assert url == "https://" + host + "/" + key;
    assert host[|host| - 4..] == ".com";
    assert url[p..p + 5] == UrlKeyMarker by {
      assert url[p..p + 4] == host[|host| - 4..];
      assert url[p + 4] == '/';
    }
    assert '/' !in host by {
      assert host == bucket + ".s3." + region + ".amazonaws.com";
    }
    forall j: nat | j < p
      ensures !OccursAt(url, UrlKeyMarker, j)
    {
      if j + 5 <= |url| {
        if j == 2 || j == 3 {
          assert url[j..j + 5][0] != '.';
        } else {
          assert url[j + 4] != '/' by {
            if j + 4 >= 8 {
              assert url[j + 4] == host[j - 4];
            }
          }
          assert url[j..j + 5][4] != '/';
        }
      }
    }
    IndexOfFinds(url, UrlKeyMarker, 0, p);
    assert url[p + 5..] == key;
    assert IndexOf(key, UrlKeyMarker, 0).None?;
    assert Split(key, UrlKeyMarker) == [key];
  }

  // ---------------------------------------------------------------------------
  // Configuration
  // ---------------------------------------------------------------------------

  const DefaultRegion: string := "us-east-1"

  /** The process environment the handler reads; `None` is an unset variable. */
  datatype Env = Env(accessKeyId: Option<string>, secretAccessKey: Option<string>, region: Option<string>, bucket: Option<string>)

  datatype Config = Config(accessKeyId: string, secretAccessKey: string, region: string, bucket: string)

  /** `Deno.env.get(name)?.trim()`, with `undefined` rendered as the empty
      string: both are falsy, which is all the handler asks of them. */
  function Trimmed(v: Option<string>): string {
    match v
    case None => ""
    case Some(s) => Trim(s)
  }

  /** The configuration check: key id, secret and bucket must be non-blank;
      a blank or unset region falls back to `us-east-1`. */
  function Configure(env: Env): (r: Option<Config>)
    ensures r.Some? <==> Trimmed(env.accessKeyId) != "" && Trimmed(env.secretAccessKey) != "" && Trimmed(env.bucket) != ""
    ensures r.Some? ==> r.value.accessKeyId == Trimmed(env.accessKeyId) && r.value.secretAccessKey == Trimmed(env.secretAccessKey)
                        && r.value.bucket == Trimmed(env.bucket)
    ensures r.Some? && (env.region.None? || AllSpace(env.region.value)) ==> r.value.region == DefaultRegion
    ensures r.Some? && env.region.Some? && !AllSpace(env.region.value) ==> r.value.region == Trim(env.region.value)
  {
    var id := Trimmed(env.accessKeyId);
    var secret := Trimmed(env.secretAccessKey);
    var region := if Trimmed(env.region) != "" then Trimmed(env.region) else DefaultRegion;
    var bucket := Trimmed(env.bucket);
    if id == "" || secret == "" || bucket == "" then None
    else Some(Config(id, secret, region, bucket))
  }

  // ---------------------------------------------------------------------------
  // Tags
  // ---------------------------------------------------------------------------

  /** `[-_\s]`, with `\s` restricted to ASCII whitespace. */
  predicate IsTagSeparator(c: char) {
    c == '-' || c == '_' || IsSpace(c)
  }

  predicate NoSeparator(s: string) {
    forall i :: 0 <= i < |s| ==> !IsTagSeparator(s[i])
  }

  /** `s` ends in an extension starting at the dot at `i`: at least one
      character follows, and none of them is `.` or `/`. */
  predicate ExtensionAt(s: string, i: nat) {
    i + 1 < |s| && s[i] == '.' && forall j :: i < j < |s| ==> s[j] != '.' && s[j] != '/'
  }

  /** `replace(/\.[^/.]+$/, "")`: strips the extension when there is one and
      leaves the name alone otherwise. */
  function StripExtension(name: string): (r: string)
    ensures forall i: nat :: ExtensionAt(name, i) ==> r == name[..i]
    ensures (forall i: nat :: !ExtensionAt(name, i)) ==> r == name
  {
    match LastIndexOf(name, '.')
    case None => name
    case Some(i) =>
      if i + 1 < |name| && '/' !in name[i + 1..] then
        assert ExtensionAt(name, i) by {
          forall j | i < j < |name| ensures name[j] != '/' {
            assert name[j] == name[i + 1..][j - i - 1];
          }
        }
        name[..i]
      else
        assert !ExtensionAt(name, i) by {
          if i + 1 < |name| {
            var k :| 0 <= k < |name[i + 1..]| && name[i + 1..][k] == '/';
            assert name[i + 1 + k] == '/';
          }
        }
        name
  }

  /** The first separator at or after `from`. */
  function FirstSeparator(s: string, from: nat): (r: Option<nat>)
    requires from <= |s|
    ensures r.Some? ==> from <= r.value < |s| && IsTagSeparator(s[r.value])
    ensures r.Some? ==> forall j :: from <= j < r.value ==> !IsTagSeparator(s[j])
    ensures r.None? ==> forall j :: from <= j < |s| ==> !IsTagSeparator(s[j])
    decreases |s| - from
  {
    if from == |s| then None
    else if IsTagSeparator(s[from]) then Some(from)
    else FirstSeparator(s, from + 1)
  }

  /** The end of the separator run that starts at or before `from`. */
  function RunEnd(s: string, from: nat): (j: nat)
    requires from <= |s|
    ensures from <= j <= |s|
    ensures forall k :: from <= k < j ==> IsTagSeparator(s[k])
    ensures j < |s| ==> !IsTagSeparator(s[j])
    decreases |s| - from
  {
    if from < |s| && IsTagSeparator(s[from]) then RunEnd(s, from + 1) else from
  }

  /** `split(/[-_\s]+/)`: the pieces between maximal separator runs; a
      leading or trailing run yields an empty piece. */
  function SplitOnRuns(s: string): (parts: seq<string>)
    ensures |parts| >= 1
    ensures forall k :: 0 <= k < |parts| ==> NoSeparator(parts[k])
    decreases |s|
  {
    match FirstSeparator(s, 0)
    case None => [s]
    case Some(i) => [s[..i]] + SplitOnRuns(s[RunEnd(s, i + 1)..])
  }

  /** The characters of `s` that are not separators, in order. */
  function Unseparated(s: string): string {
    if |s| == 0 then "" else (if IsTagSeparator(s[0]) then "" else [s[0]]) + Unseparated(s[1..])
  }

  lemma {:induction false} UnseparatedAppend(a: string, b: string)
    ensures Unseparated(a + b) == Unseparated(a) + Unseparated(b)
    decreases |a|
  {
    if |a| == 0 {
      assert a + b == b;
    } else {
      assert (a + b)[0] == a[0];
      assert (a + b)[1..] == a[1..] + b;
      UnseparatedAppend(a[1..], b);
    }
  }

  lemma {:induction false} UnseparatedOfPlain(s: string)
    requires NoSeparator(s)
    ensures Unseparated(s) == s
    decreases |s|
  {
    if |s| > 0 {
      UnseparatedOfPlain(s[1..]);
      assert s == [s[0]] + s[1..];
    }
  }

  lemma {:induction false} UnseparatedOfRun(s: string)
    requires forall i :: 0 <= i < |s| ==> IsTagSeparator(s[i])
    ensures Unseparated(s) == ""
    decreases |s|
  {
    if |s| > 0 {
      UnseparatedOfRun(s[1..]);
    }
  }

  lemma JoinEmptyCons(p: string, rest: seq<string>)
    ensures Join([p] + rest, "") == p + Join(rest, "")
  {
    if |rest| > 0 {
      assert ([p] + rest)[1..] == rest;
    }
  }

  /** A run of separators contributes nothing. */
  lemma {:induction false} UnseparatedSkipsRun(run: string, tail: string)
    requires forall k :: 0 <= k < |run| ==> IsTagSeparator(run[k])
    ensures Unseparated(run + tail) == Unseparated(tail)
    decreases |run|
  {
    if |run| == 0 {
      assert run + tail == tail;
    } else {
      assert (run + tail)[1..] == run[1..] + tail;
      UnseparatedSkipsRun(run[1..], tail);
    }
  }

  /** A separator-free head followed by a run of separators contributes just
      the head. */
  lemma {:induction false} UnseparatedAcrossRun(head: string, run: string, tail: string)
    requires NoSeparator(head)
    requires forall k :: 0 <= k < |run| ==> IsTagSeparator(run[k])
    ensures Unseparated(head + (run + tail)) == head + Unseparated(tail)
    decreases |head|
  {
    if |head| == 0 {
      assert head + (run + tail) == run + tail;
      UnseparatedSkipsRun(run, tail);
    } else {
      var rest := run + tail;
      assert (head + rest)[0] == head[0];
      assert (head + rest)[1..] == head[1..] + rest;
      UnseparatedAcrossRun(head[1..], run, tail);
      assert head == [head[0]] + head[1..];
    }
  }

  lemma SlicesJoin(s: string, i: nat, j: nat)
    requires i <= j <= |s|
    ensures s == s[..i] + (s[i..j] + s[j..])
  {
    assert s[i..] == s[i..j] + s[j..];
  }

  /** Splitting on separator runs drops the separators and nothing else. */
  lemma {:induction false} SplitOnRunsKeepsText(s: string)
    ensures Join(SplitOnRuns(s), "") == Unseparated(s)
    decreases |s|
  {
    match FirstSeparator(s, 0)
    case None =>
      UnseparatedOfPlain(s);
    case Some(i) =>
      var j := RunEnd(s, i + 1);
      var rest := SplitOnRuns(s[j..]);
      assert SplitOnRuns(s) == [s[..i]] + rest;
      JoinEmptyCons(s[..i], rest);
      SplitOnRunsKeepsText(s[j..]);
      var run := s[i..j];
      forall k | 0 <= k < |run|
        ensures IsTagSeparator(run[k])
      {
        assert run[k] == s[i + k];
      }
      SlicesJoin(s, i, j);
      UnseparatedAcrossRun(s[..i], run, s[j..]);
  }

  /** `filter(tag => tag.length > 0)`. */
  function NonEmpty(parts: seq<string>): (r: seq<string>)
    ensures |r| <= |parts|
    ensures forall k :: 0 <= k < |r| ==> r[k] != ""
    ensures forall p :: p in r <==> p in parts && p != ""
  {
    if |parts| == 0 then []
    else (if parts[0] == "" then [] else [parts[0]]) + NonEmpty(parts[1..])
  }

  lemma {:induction false} NonEmptyKeepsText(parts: seq<string>)
    ensures Join(NonEmpty(parts), "") == Join(parts, "")
    decreases |parts|
  {
    if |parts| > 0 {
      NonEmptyKeepsText(parts[1..]);
      JoinEmptyCons(parts[0], parts[1..]);
      assert parts == [parts[0]] + parts[1..];
      if parts[0] != "" {
        JoinEmptyCons(parts[0], NonEmpty(parts[1..]));
      } else {
        assert NonEmpty(parts) == [] + NonEmpty(parts[1..]) == NonEmpty(parts[1..]);
      }
    }
  }

  lemma {:induction false} JoinLower(parts: seq<string>)
    ensures Join(MapSeq(Lower, parts), "") == Lower(Join(parts, ""))
    decreases |parts|
  {
    if |parts| > 0 {
      JoinLower(parts[1..]);
      JoinEmptyCons(parts[0], parts[1..]);
      assert parts == [parts[0]] + parts[1..];
      assert MapSeq(Lower, parts) == [Lower(parts[0])] + MapSeq(Lower, parts[1..]);
      JoinEmptyCons(Lower(parts[0]), MapSeq(Lower, parts[1..]));
      LowerAppend(parts[0], Join(parts[1..], ""));
    }
  }

  /** The tags the rename stores: strip the extension, split on separator
      runs, drop empty pieces, lower-case. Duplicates are kept. */
  function Tags(newFilename: string): seq<string> {
    MapSeq(Lower, NonEmpty(SplitOnRuns(StripExtension(newFilename))))
  }

  /** Every tag is non-empty, has no capital letter and no separator, and the
      tags spell out the extension-less name with its separators removed,
      lower-cased. */
  lemma TagsWellFormed(newFilename: string)
    ensures forall k :: 0 <= k < |Tags(newFilename)| ==>
              Tags(newFilename)[k] != "" && NoUpper(Tags(newFilename)[k]) && NoSeparator(Tags(newFilename)[k])
    ensures Join(Tags(newFilename), "") == Lower(Unseparated(StripExtension(newFilename)))
  {
    var pieces := SplitOnRuns(StripExtension(newFilename));
    var kept := NonEmpty(pieces);
    forall k | 0 <= k < |kept|
      ensures NoSeparator(kept[k])
    {
      assert kept[k] in pieces;
    }
    NonEmptyKeepsText(pieces);
    SplitOnRunsKeepsText(StripExtension(newFilename));
    JoinLower(kept);
  }

  /** Non-empty words without separators, joined by `-`, split back into
      those words. */
  lemma {:induction false} SplitOnRunsOfJoin(words: seq<string>)
    requires |words| >= 1
    requires forall k :: 0 <= k < |words| ==> words[k] != "" && NoSeparator(words[k])
    ensures SplitOnRuns(Join(words, "-")) == words
    decreases |words|
  {
    var s := Join(words, "-");
    if |words| == 1 {
      assert s == words[0];
      assert FirstSeparator(s, 0).None?;
    } else {
      var w := words[0];
      var rest := Join(words[1..], "-");
      var k := |w|;
      assert s == w + "-" + rest;
      assert s[k] == '-';
      assert words[1] == words[1..][0];
      JoinHead(words[1..], "-");
      assert s[k + 1] == words[1][0];
      forall j | 0 <= j < k ensures !IsTagSeparator(s[j]) {
        assert s[j] == w[j];
      }
      assert FirstSeparator(s, 0) == Some(k);
      assert RunEnd(s, k + 1) == k + 1;
      assert s[..k] == w;
      assert s[k + 1..] == rest;
      SplitOnRunsOfJoin(words[1..]);
      assert SplitOnRuns(s) == [w] + words[1..];
    }
  }

  /** A join of non-empty pieces starts with the first piece. */
  lemma JoinHead(parts: seq<string>, sep: string)
    requires |parts| >= 1
    ensures Join(parts, sep)[..|parts[0]|] == parts[0]
  {
  }

  /** Filtering out empty pieces keeps a list without any. */
  lemma {:induction false} NonEmptyOfNonEmpty(parts: seq<string>)
    requires forall k :: 0 <= k < |parts| ==> parts[k] != ""
    ensures NonEmpty(parts) == parts
    decreases |parts|
  {
    if |parts| > 0 {
      NonEmptyOfNonEmpty(parts[1..]);
      assert parts == [parts[0]] + parts[1..];
    }
  }

  /** Appending `.ext` to a stem and stripping the extension gives the stem
      back. */
  lemma StripAddedExtension(stem: string, ext: string)
    requires ext != "" && '.' !in ext && '/' !in ext
    ensures StripExtension(stem + "." + ext) == stem
  {
    var name := stem + "." + ext;
    assert ExtensionAt(name, |stem|) by {
      forall j | |stem| < j < |name| ensures name[j] != '.' && name[j] != '/' {
        assert name[j] == ext[j - |stem| - 1];
      }
    }
    assert name[..|stem|] == stem;
  }

  /** A file name made of words joined by `-`, with an extension, yields
      exactly those words lower-cased, in order and with repetitions. */
  lemma TagsOfWords(words: seq<string>, ext: string)
    requires |words| >= 1
    requires forall k :: 0 <= k < |words| ==> words[k] != "" && NoSeparator(words[k])
    requires ext != "" && '.' !in ext && '/' !in ext
    ensures Tags(Join(words, "-") + "." + ext) == MapSeq(Lower, words)
  {
    calc {
      Tags(Join(words, "-") + "." + ext);
    == { StripAddedExtension(Join(words, "-"), ext); }
      MapSeq(Lower, NonEmpty(SplitOnRuns(Join(words, "-"))));
    == { SplitOnRunsOfJoin(words); }
      MapSeq(Lower, NonEmpty(words));
    == { NonEmptyOfNonEmpty(words); }
      MapSeq(Lower, words);
    }
  }

  /** A name made only of separators and an extension yields no tags. */
  lemma TagsOfSeparatorsOnly()
    ensures Tags("___.png") == []
  {
    assert ExtensionAt("___.png", 3);
    assert StripExtension("___.png") == "___";
    assert FirstSeparator("___", 0) == Some(0);
    assert RunEnd("___", 1) == 3;
    assert "___"[3..] == "";
    assert SplitOnRuns("___") == ["", ""];
    assert NonEmpty(["", ""]) == [];
  }

  /** A name without an extension is kept whole. */
  lemma TagsOfPlainName()
    ensures Tags("noext") == ["noext"]
  {
    assert '.' !in "noext";
    assert LastIndexOf("noext", '.') == None;
    assert StripExtension("noext") == "noext";
    assert SplitOnRuns("noext") == ["noext"];
    assert NonEmpty(["noext"]) == ["noext"];
    assert Lower("noext") == "noext";
  }

  /** Mixed separators collapse, capitals are lowered, and a repeated word
      stays repeated. */
  lemma TagsKeepDuplicates()
    ensures Tags("Cat-cat.jpg") == ["cat", "cat"]
  {
    StripCatCat();
    SplitCatCat();
    assert NonEmpty(["Cat", "cat"]) == ["Cat", "cat"];
    LowerCat("Cat");
    LowerCat("cat");
  }

  lemma LowerCat(w: string)
    requires w == "Cat" || w == "cat"
    ensures Lower(w) == "cat"
  {
    var l := Lower(w);
    assert l[0] == LowerChar(w[0]) == 'c';
    assert l[1] == 'a' && l[2] == 't';
  }

  lemma StripCatCat()
    ensures StripExtension("Cat-cat.jpg") == "Cat-cat"
  {
    assert ExtensionAt("Cat-cat.jpg", 7);
  }

  lemma SplitCatCat()
    ensures SplitOnRuns("Cat-cat") == ["Cat", "cat"]
  {
    assert FirstSeparator("Cat-cat", 0) == Some(3);
    assert RunEnd("Cat-cat", 4) == 4;
    assert "Cat-cat"[..3] == "Cat" && "Cat-cat"[4..] == "cat";
    assert SplitOnRuns("cat") == ["cat"];
  }
}

=== FILE: selection.dfy ===
/** The multi-select state both image grids keep: a set of selected image ids
    and whether selection mode is on. The trash bin and the hidden-folder grid
    define the same four handlers; they are modelled once here. */
module Selection {
  datatype Selection = Selection(selected: set<string>, active: bool)

  const Idle: Selection := Selection({}, false)

  /** `toggleImageSelection`: flips one id; an emptied selection also leaves
      selection mode. */
  function Toggle(s: Selection, id: string): (r: Selection)
    ensures id in r.selected <==> id !in s.selected
    ensures forall x :: x != id ==> (x in r.selected <==> x in s.selected)
    ensures r.active <==> s.active && r.selected != {}
  {
    var next := if id in s.selected then s.selected - {id} else s.selected + {id};
    Selection(next, if next == {} then false else s.active)
  }

  /** `handleImageClick`: a click toggles only while selection mode is on. */
  function Click(s: Selection, id: string): (r: Selection)
    ensures !s.active ==> r == s
    ensures s.active ==> (id in r.selected <==> id !in s.selected)
    ensures forall x :: x != id ==> (x in r.selected <==> x in s.selected)
    ensures r.active <==> s.active && r.selected != {}
  {
    if s.active then Toggle(s, id) else s
  }

  /** `toggleSelectionMode`: flips the mode and forgets the selection either
      way. */
  function ToggleMode(s: Selection): (r: Selection)
    ensures r.active == !s.active && r.selected == {}
  {
    Selection({}, !s.active)
  }

  /** `selectAll`: the ids of the images on screen, in selection mode or not. */
  function SelectAll(s: Selection, ids: seq<string>): (r: Selection)
    ensures forall x :: x in r.selected <==> x in ids
    ensures r.active == s.active
  {
    Selection(set i | 0 <= i < |ids| :: ids[i], s.active)
  }

  /** `deselectAll`: back to the idle state. */
  function DeselectAll(s: Selection): (r: Selection)
    ensures r.selected == {} && !r.active
  {
    Idle
  }

  /** The grids only ever hold a selection while selection mode is on. */
  predicate Coherent(s: Selection) {
    s.selected != {} ==> s.active
  }

  /** Every handler the grids can reach keeps the selection coherent;
      `selectAll` is only offered in selection mode. */
  lemma HandlersKeepCoherent(s: Selection, id: string, ids: seq<string>)
    requires Coherent(s)
    ensures Coherent(Click(s, id))
    ensures Coherent(ToggleMode(s))
    ensures s.active ==> Coherent(SelectAll(s, ids))
    ensures Coherent(DeselectAll(s))
  {
  }

  /** Toggling the same id twice restores the selected set. */
  lemma ToggleTwice(s: Selection, id: string)
    ensures Toggle(Toggle(s, id), id).selected == s.selected
  {
  }

  /** Clicking an id twice in a coherent, non-empty selection is a no-op. */
  lemma ClickTwice(s: Selection, id: string)
    requires Coherent(s) && s.selected != {}
    ensures Click(Click(s, id), id) == s || (s.selected == {id} && Click(Click(s, id), id) == Idle)
  {
    var once := Click(s, id);
    if once.selected == {} {
      assert s.selected == {id} by {
        forall x | x in s.selected ensures x == id {
          assert x !in once.selected;
        }
      }
    }
  }

  /** Toggling the mode twice returns to the same mode with nothing
      selected. */
  lemma ToggleModeTwice(s: Selection)
    ensures ToggleMode(ToggleMode(s)) == Selection({}, s.active)
  {
  }
}

=== FILE: sigv4.dfy ===
/** The hand-written AWS Signature Version 4 signer of the rename handler
    (`getSignature` and its `hmac` helper): canonical request, string to sign,
    the four-step signing-key chain and the `Authorization` value. The
    payload is never hashed: every request is signed as `UNSIGNED-PAYLOAD`
    with an empty query string. */
module SigV4 {
  import opened Text
  import opened Bytes
  import opened Sorting

  const Algorithm: string := "AWS4-HMAC-SHA256"
  const UnsignedPayload: string := "UNSIGNED-PAYLOAD"
  const Service: string := "s3"
  const ScopeTerminator: string := "aws4_request"

  /** One entry of a header record, in insertion order. */
  datatype Header = Header(name: string, value: string)

  function NameOf(h: Header): string {
    h.name
  }

  function LowerName(h: Header): string {
    Lower(h.name)
  }

  function Identity(s: string): string {
    s
  }

  predicate IsHeaderNameChar(c: char) {
    'a' <= c <= 'z' || '0' <= c <= '9' || c == '-'
  }

  predicate IsHeaderName(s: string) {
    |s| > 0 && forall i :: 0 <= i < |s| ==> IsHeaderNameChar(s[i])
  }

  /** A header record as the handler builds one: an object, so names are
      distinct, and every name is lower-case ASCII, the alphabet on which
      `localeCompare` and the ordinal order agree. */
  predicate WellFormedHeaders(hs: seq<Header>) {
    DistinctKeys(hs, NameOf) && forall i :: 0 <= i < |hs| ==> IsHeaderName(hs[i].name)
  }

  predicate NoNewline(s: string) {
    '\n' !in s
  }

  // ---------------------------------------------------------------------------
  // Step 1: the canonical request
  // ---------------------------------------------------------------------------

  function HeaderLine(h: Header): string {
    Lower(h.name) + ":" + h.value
  }

  /** The entries sorted by name, one `name:value` line each, every line
      (the last one included) terminated by a newline. */
  function CanonicalHeaders(hs: seq<Header>): string {
    Join(MapSeq(HeaderLine, SortBy(hs, NameOf)), "\n") + "\n"
  }

  /** The names lower-cased first, then sorted, then joined by `;`. */
  function SignedHeaders(hs: seq<Header>): string {
    Join(SortBy(MapSeq(LowerName, hs), Identity), ";")
  }

  function CanonicalUri(key: string): string {
    "/" + key
  }

  const CanonicalQueryString: string := ""

  function CanonicalRequest(verb: string, key: string, hs: seq<Header>): string {
    verb + "\n" + CanonicalUri(key) + "\n" + CanonicalQueryString + "\n" + CanonicalHeaders(hs) + "\n"
    + SignedHeaders(hs) + "\n" + UnsignedPayload
  }

  // ---------------------------------------------------------------------------
  // Steps 2-4: string to sign, signing key, signature
  // ---------------------------------------------------------------------------

  /** What `getSignature` reads from the enclosing handler: the trimmed
      credentials, the region and the `amzDate` computed once per request. */
  datatype SigningContext = SigningContext(accessKeyId: string, secretAccessKey: string, region: string, amzDate: string)

  /** `amzDate.slice(0, 8)`. */
  function DateStamp(amzDate: string): (d: string)
    ensures d <= amzDate && |d| <= 8
    ensures |amzDate| >= 8 ==> |d| == 8
  {
    Take(amzDate, 8)
  }

  function CredentialScope(dateStamp: string, region: string): string {
    dateStamp + "/" + region + "/" + Service + "/" + ScopeTerminator
  }

  function StringToSign(c: Crypto, amzDate: string, scope: string, canonicalRequest: string): string {
    Algorithm + "\n" + amzDate + "\n" + scope + "\n" + Hex(c.sha256(Utf8(canonicalRequest)))
  }

  /** kSigning = HMAC(HMAC(HMAC(HMAC("AWS4" + secret, date), region), "s3"), "aws4_request"). */
  function SigningKey(c: Crypto, secret: string, dateStamp: string, region: string): Digest {
    var kDate := c.hmac(Utf8("AWS4" + secret), Utf8(dateStamp));
    var kRegion := c.hmac(kDate, Utf8(region));
    var kService := c.hmac(kRegion, Utf8(Service));
    c.hmac(kService, Utf8(ScopeTerminator))
  }

  /** The raw HMAC the signature hex encodes. */
  function SignatureBytes(c: Crypto, ctx: SigningContext, verb: string, key: string, hs: seq<Header>): Digest {
    var dateStamp := DateStamp(ctx.amzDate);
    var scope := CredentialScope(dateStamp, ctx.region);
    var toSign := StringToSign(c, ctx.amzDate, scope, CanonicalRequest(verb, key, hs));
    c.hmac(SigningKey(c, ctx.secretAccessKey, dateStamp, ctx.region), Utf8(toSign))
  }

  function CredentialPrefix(ctx: SigningContext): string {
    Algorithm + " Credential=" + ctx.accessKeyId + "/" + CredentialScope(DateStamp(ctx.amzDate), ctx.region)
  }

  /** What `getSignature` returns. */
  datatype Signed = Signed(authorization: string, signedHeaders: string)

  /** `getSignature(verb, key, headers)`. The `Authorization` value starts
      with the algorithm and credential scope, names the signed headers, and
      ends in exactly 64 lower-case hex digits from which the HMAC of the
      string to sign under the derived signing key can be read back. */
  function GetSignature(c: Crypto, ctx: SigningContext, verb: string, key: string, hs: seq<Header>): (s: Signed)
    ensures s.signedHeaders == SignedHeaders(hs)
    ensures |s.authorization| >= 64
    ensures CredentialPrefix(ctx) + ", SignedHeaders=" + s.signedHeaders + ", Signature="
            == s.authorization[..|s.authorization| - 64]
    ensures IsHex(s.authorization[|s.authorization| - 64..])
    ensures UnHex(s.authorization[|s.authorization| - 64..]) == SignatureBytes(c, ctx, verb, key, hs)
  {
    var signed := SignedHeaders(hs);
    var signatureHex := Hex(SignatureBytes(c, ctx, verb, key, hs));
    var auth := CredentialPrefix(ctx) + ", SignedHeaders=" + signed + ", Signature=" + signatureHex;
    assert auth[|auth| - 64..] == signatureHex;
    HexRoundTrip(SignatureBytes(c, ctx, verb, key, hs));
    Signed(auth, signed)
  }

  // ---------------------------------------------------------------------------
  // Properties
  // ---------------------------------------------------------------------------

  lemma WellFormedNamesAreLower(hs: seq<Header>)
    requires WellFormedHeaders(hs)
    ensures MapSeq(LowerName, hs) == MapSeq(NameOf, hs)
  {
    forall i | 0 <= i < |hs|
      ensures Lower(hs[i].name) == hs[i].name
    {
      LowerFixesNoUpper(hs[i].name);
    }
  }

  /** The signed-header list names the canonical header lines in the same
      order: the lower-cased names of the sorted entries, joined by `;`. */
  lemma SignedHeadersFollowCanonicalOrder(hs: seq<Header>)
    requires WellFormedHeaders(hs)
    ensures SortBy(MapSeq(LowerName, hs), Identity) == MapSeq(NameOf, SortBy(hs, NameOf))
    ensures SignedHeaders(hs) == Join(MapSeq(NameOf, SortBy(hs, NameOf)), ";")
  {
    WellFormedNamesAreLower(hs);
    var names := MapSeq(NameOf, hs);
    var sorted := SortBy(hs, NameOf);
    var sortedNames := MapSeq(NameOf, sorted);
    SortBySorted(hs, NameOf);
    assert forall h :: h in sorted <==> h in hs by {
      forall h ensures h in sorted <==> h in hs {
        assert h in sorted <==> h in multiset(sorted);
      }
    }
    forall x
      ensures x in sortedNames <==> x in names
    {
      if x in sortedNames {
        MapSeqCovered(NameOf, sorted, hs, x);
      }
      if x in names {
        MapSeqCovered(NameOf, hs, sorted, x);
      }
    }
    SortByCharacterized(names, Identity, sortedNames);
  }

  /** Given the entries in increasing name order, the signed-header list is
      their names in that order, joined by `;`. */
  lemma SignedHeadersOfArrangement(hs: seq<Header>, sorted: seq<Header>)
    requires WellFormedHeaders(hs)
    requires SortedBy(sorted, NameOf)
    requires forall h :: h in sorted <==> h in hs
    ensures SignedHeaders(hs) == Join(MapSeq(NameOf, sorted), ";")
  {
    SortByCharacterized(hs, NameOf, sorted);
    SignedHeadersFollowCanonicalOrder(hs);
  }

  /** Header records with the same entries in a different insertion order
      sign identically: same canonical request, same signed-header list, same
      `Authorization` value. */
  lemma HeaderOrderIrrelevant(c: Crypto, ctx: SigningContext, verb: string, key: string, hs: seq<Header>, hs': seq<Header>)
    requires WellFormedHeaders(hs) && WellFormedHeaders(hs')
    requires multiset(hs) == multiset(hs')
    ensures CanonicalRequest(verb, key, hs) == CanonicalRequest(verb, key, hs')
    ensures SignedHeaders(hs) == SignedHeaders(hs')
    ensures GetSignature(c, ctx, verb, key, hs) == GetSignature(c, ctx, verb, key, hs')
  {
    SortByPermutationInvariant(hs, hs', NameOf);
    SignedHeadersFollowCanonicalOrder(hs);
    SignedHeadersFollowCanonicalOrder(hs');
  }

  /** The lines of a canonical request: the verb, `/` + key, an empty query
      line, one line per header in sorted order, a blank line, the
      signed-header list and the payload sentinel. */
  function CanonicalLines(verb: string, key: string, hs: seq<Header>): seq<string> {
    [verb, CanonicalUri(key), CanonicalQueryString] + MapSeq(HeaderLine, SortBy(hs, NameOf))
    + ["", SignedHeaders(hs), UnsignedPayload]
  }

  /** The layout of a canonical request, whatever the lines hold. */
  lemma RequestLayout(verb: string, path: string, lines: seq<string>, signed: string, nl: string)
    requires |lines| > 0
    ensures verb + nl + path + nl + "" + nl + (Join(lines, nl) + nl) + nl + signed + nl + UnsignedPayload
            == Join([verb, path, ""] + lines + ["", signed, UnsignedPayload], nl)
  {
    var front := [verb, path, ""];
    var back := ["", signed, UnsignedPayload];
    var block := Join(lines, nl);
    calc {
      Join(front + lines + back, nl);
    == { assert front + lines + back == front + (lines + back); JoinAppend(front, lines + back, nl); }
      Join(front, nl) + nl + Join(lines + back, nl);
    == { JoinThree(verb, path, "", nl); JoinAppend(lines, back, nl); }
      verb + nl + path + nl + "" + nl + (block + nl + Join(back, nl));
    == { JoinThree("", signed, UnsignedPayload, nl); }
      verb + nl + path + nl + "" + nl + (block + nl + ("" + nl + signed + nl + UnsignedPayload));
    == { Regroup(verb + nl + path + nl + "" + nl, block, nl, signed, UnsignedPayload); }
      verb + nl + path + nl + "" + nl + (block + nl) + nl + signed + nl + UnsignedPayload;
    }
  }

  lemma Regroup(x: string, b: string, n: string, s: string, u: string)
    ensures x + (b + n + ("" + n + s + n + u)) == x + (b + n) + n + s + n + u
  {
  }

  lemma CanonicalRequestIsJoinOfLines(verb: string, key: string, hs: seq<Header>)
    requires |hs| > 0
    ensures CanonicalRequest(verb, key, hs) == Join(CanonicalLines(verb, key, hs), "\n")
  {
    var lines := MapSeq(HeaderLine, SortBy(hs, NameOf));
    var signed := SignedHeaders(hs);
    var uri := CanonicalUri(key);
    assert CanonicalHeaders(hs) == Join(lines, "\n") + "\n";
    assert CanonicalRequest(verb, key, hs)
        == verb + "\n" + uri + "\n" + "" + "\n" + (Join(lines, "\n") + "\n") + "\n" + signed + "\n" + UnsignedPayload;
    RequestLayout(verb, uri, lines, signed, "\n");
  }

  lemma HeaderLinesHaveNoNewline(hs: seq<Header>)
    requires WellFormedHeaders(hs)
    requires forall i :: 0 <= i < |hs| ==> NoNewline(hs[i].value)
    ensures forall i :: 0 <= i < |hs| ==> NoNewline(HeaderLine(hs[i]))
  {
    forall i | 0 <= i < |hs|
      ensures NoNewline(HeaderLine(hs[i]))
    {
      assert IsHeaderName(hs[i].name);
      assert NoNewline(Lower(hs[i].name));
    }
  }

  lemma SortedLinesHaveNoNewline(hs: seq<Header>)
    requires WellFormedHeaders(hs)
    requires forall i :: 0 <= i < |hs| ==> NoNewline(hs[i].value)
    ensures forall i :: 0 <= i < |hs| ==> NoNewline(MapSeq(HeaderLine, SortBy(hs, NameOf))[i])
    ensures NoNewline(SignedHeaders(hs))
  {
    var sorted := SortBy(hs, NameOf);
    HeaderLinesHaveNoNewline(hs);
    forall i | 0 <= i < |sorted|
      ensures NoNewline(HeaderLine(sorted[i])) && IsHeaderName(MapSeq(NameOf, sorted)[i])
    {
      assert sorted[i] in multiset(hs);
    }
    SignedHeadersFollowCanonicalOrder(hs);
    SignedHeadersHaveNoNewline(MapSeq(NameOf, sorted));
  }

  lemma NoNewlinesAppend(a: seq<string>, b: seq<string>)
    requires forall i :: 0 <= i < |a| ==> NoNewline(a[i])
    requires forall i :: 0 <= i < |b| ==> NoNewline(b[i])
    ensures forall i :: 0 <= i < |a + b| ==> NoNewline((a + b)[i])
  {
    forall i | 0 <= i < |a + b|
      ensures NoNewline((a + b)[i])
    {
      if i >= |a| {
        assert (a + b)[i] == b[i - |a|];
      }
    }
  }

  lemma OuterLinesHaveNoNewline(verb: string, key: string, hs: seq<Header>)
    requires WellFormedHeaders(hs)
    requires NoNewline(verb) && NoNewline(key)
    requires forall i :: 0 <= i < |hs| ==> NoNewline(hs[i].value)
    ensures forall i :: 0 <= i < 3 ==> NoNewline([verb, CanonicalUri(key), CanonicalQueryString][i])
    ensures forall i :: 0 <= i < 3 ==> NoNewline(["", SignedHeaders(hs), UnsignedPayload][i])
  {
    SortedLinesHaveNoNewline(hs);
    assert NoNewline(CanonicalUri(key));
    assert NoNewline(UnsignedPayload) by {
      assert forall j :: 0 <= j < |UnsignedPayload| ==> UnsignedPayload[j] != '\n';
    }
  }

  lemma CanonicalLinesHaveNoNewline(verb: string, key: string, hs: seq<Header>)
    requires WellFormedHeaders(hs)
    requires NoNewline(verb) && NoNewline(key)
    requires forall i :: 0 <= i < |hs| ==> NoNewline(hs[i].value)
    ensures forall i :: 0 <= i < |CanonicalLines(verb, key, hs)| ==> '\n' !in CanonicalLines(verb, key, hs)[i]
  {
    var lines := MapSeq(HeaderLine, SortBy(hs, NameOf));
    var front := [verb, CanonicalUri(key), CanonicalQueryString];
    var back := ["", SignedHeaders(hs), UnsignedPayload];
    assert |lines| == |hs| by {
      assert |SortBy(hs, NameOf)| == |multiset(SortBy(hs, NameOf))| == |multiset(hs)|;
    }
    SortedLinesHaveNoNewline(hs);
    OuterLinesHaveNoNewline(verb, key, hs);
    NoNewlinesAppend(front, lines);
    NoNewlinesAppend(front + lines, back);
    assert CanonicalLines(verb, key, hs) == front + lines + back;
  }

  /** Read line by line, the canonical request is exactly `CanonicalLines`;
      in particular a blank line separates the header block from the
      signed-header list. */
  lemma CanonicalRequestLines(verb: string, key: string, hs: seq<Header>)
    requires WellFormedHeaders(hs) && |hs| > 0
    requires NoNewline(verb) && NoNewline(key)
    requires forall i :: 0 <= i < |hs| ==> NoNewline(hs[i].value)
    ensures Split(CanonicalRequest(verb, key, hs), "\n") == CanonicalLines(verb, key, hs)
  {
    CanonicalLinesHaveNoNewline(verb, key, hs);
    CanonicalRequestIsJoinOfLines(verb, key, hs);
    JoinThenSplit(CanonicalLines(verb, key, hs), '\n');
  }

  lemma {:induction false} SignedHeadersHaveNoNewline(names: seq<string>)
    requires forall i :: 0 <= i < |names| ==> IsHeaderName(names[i])
    ensures NoNewline(Join(names, ";"))
    decreases |names|
  {
    if |names| > 1 {
      SignedHeadersHaveNoNewline(names[1..]);
    }
  }
}

=== FILE: sorting.dfy ===
/** Ordinal string order and the insertion sort used to put header names in
    canonical order. `Array.prototype.sort()` with no comparator orders strings
    by code units; on the ASCII header names the signer sees, that is the
    code-point order `Below` defines here. */
module Sorting {

  /** Strict lexicographic order on code points; a proper prefix comes first. */
  predicate Below(a: string, b: string)
    decreases |a|
  {
    if |a| == 0 then |b| > 0
    else if |b| == 0 then false
    else if a[0] != b[0] then a[0] < b[0]
    else Below(a[1..], b[1..])
  }

  lemma {:induction false} BelowIrreflexive(a: string)
    ensures !Below(a, a)
    decreases |a|
  {
    if |a| > 0 {
      BelowIrreflexive(a[1..]);
    }
  }

  lemma {:induction false} BelowTransitive(a: string, b: string, c: string)
    requires Below(a, b) && Below(b, c)
    ensures Below(a, c)
    decreases |a|
  {
    if |a| > 0 && a[0] == b[0] && b[0] == c[0] {
      BelowTransitive(a[1..], b[1..], c[1..]);
    }
  }

  lemma {:induction false} BelowTotal(a: string, b: string)
    ensures a == b || Below(a, b) || Below(b, a)
    decreases |a|
  {
    if |a| > 0 && |b| > 0 && a[0] == b[0] {
      BelowTotal(a[1..], b[1..]);
      if a[1..] == b[1..] {
        assert a == [a[0]] + a[1..] && b == [b[0]] + b[1..];
      }
    }
  }

  lemma BelowAsymmetric(a: string, b: string)
    requires Below(a, b)
    ensures !Below(b, a)
  {
    if Below(b, a) {
      BelowTransitive(a, b, a);
      BelowIrreflexive(a);
    }
  }

  /** A shared prefix does not change the order. */
  lemma {:induction false} BelowSharedPrefix(p: string, a: string, b: string)
    ensures Below(p + a, p + b) == Below(a, b)
    decreases |p|
  {
    if |p| == 0 {
      assert p + a == a && p + b == b;
    } else {
      assert (p + a)[0] == p[0] == (p + b)[0];
      assert (p + a)[1..] == p[1..] + a;
      assert (p + b)[1..] == p[1..] + b;
      BelowSharedPrefix(p[1..], a, b);
    }
  }

  // ---------------------------------------------------------------------------
  // Sorting by a string key
  // ---------------------------------------------------------------------------

  function MapSeq<T, U>(f: T -> U, xs: seq<T>): (r: seq<U>)
    ensures |r| == |xs|
    ensures forall i :: 0 <= i < |xs| ==> r[i] == f(xs[i])
  {
    seq(|xs|, i requires 0 <= i < |xs| => f(xs[i]))
  }

  /** Mapping over a sequence whose elements all occur in another yields
      only values the other's mapping yields. */
  lemma MapSeqCovered<T, U>(f: T -> U, xs: seq<T>, ys: seq<T>, y: U)
    requires forall x :: x in xs ==> x in ys
    requires y in MapSeq(f, xs)
    ensures y in MapSeq(f, ys)
  {
    var i :| 0 <= i < |xs| && MapSeq(f, xs)[i] == y;
    assert xs[i] in ys;
    var j :| 0 <= j < |ys| && ys[j] == xs[i];
    assert MapSeq(f, ys)[j] == y;
  }

  /** Keys strictly increase along the sequence (so they are also distinct). */
  predicate SortedBy<T>(xs: seq<T>, key: T -> string) {
    forall i, j :: 0 <= i < j < |xs| ==> Below(key(xs[i]), key(xs[j]))
  }

  predicate DistinctKeys<T>(xs: seq<T>, key: T -> string) {
    forall i, j :: 0 <= i < j < |xs| ==> key(xs[i]) != key(xs[j])
  }

  /** Strictly increasing neighbours make a strictly increasing sequence. */
  lemma {:induction false} SortedByChain<T>(xs: seq<T>, key: T -> string)
    requires forall i :: 0 <= i < |xs| - 1 ==> Below(key(xs[i]), key(xs[i + 1]))
    ensures SortedBy(xs, key)
    decreases |xs|
  {
    if |xs| > 1 {
      SortedByChain(xs[1..], key);
      forall j | 1 <= j < |xs|
        ensures Below(key(xs[0]), key(xs[j]))
      {
        if j > 1 {
          assert Below(key(xs[1]), key(xs[j])) by {
            assert xs[1..][0] == xs[1] && xs[1..][j - 1] == xs[j];
          }
          BelowTransitive(key(xs[0]), key(xs[1]), key(xs[j]));
        }
      }
      forall i, j | 0 <= i < j < |xs|
        ensures Below(key(xs[i]), key(xs[j]))
      {
        if i > 0 {
          assert xs[1..][i - 1] == xs[i] && xs[1..][j - 1] == xs[j];
        }
      }
    }
  }

  function Insert<T>(x: T, xs: seq<T>, key: T -> string): (r: seq<T>)
    ensures multiset(r) == multiset(xs) + multiset{x}
  {
    if |xs| == 0 then [x]
    else if Below(key(xs[0]), key(x)) then
      assert xs == [xs[0]] + xs[1..];
      [xs[0]] + Insert(x, xs[1..], key)
    else [x] + xs
  }

  /** Insertion sort by `key`; the result is a permutation of the input. */
  function SortBy<T>(xs: seq<T>, key: T -> string): (r: seq<T>)
    ensures multiset(r) == multiset(xs)
  {
    if |xs| == 0 then []
    else
      assert xs == [xs[0]] + xs[1..];
      Insert(xs[0], SortBy(xs[1..], key), key)
  }

  lemma {:induction false} InsertSorted<T>(x: T, xs: seq<T>, key: T -> string)
    requires SortedBy(xs, key)
    requires forall i :: 0 <= i < |xs| ==> key(xs[i]) != key(x)
    ensures SortedBy(Insert(x, xs, key), key)
    decreases |xs|
  {
    if |xs| == 0 {
    } else if Below(key(xs[0]), key(x)) {
      var tail := Insert(x, xs[1..], key);
      InsertSorted(x, xs[1..], key);
      forall j | 0 <= j < |tail|
        ensures Below(key(xs[0]), key(tail[j]))
      {
        assert tail[j] in multiset(tail);
        if tail[j] != x {
          assert tail[j] in multiset(xs[1..]);
          var k :| 0 <= k < |xs[1..]| && xs[1..][k] == tail[j];
          assert xs[k + 1] == tail[j];
        }
      }
      assert Insert(x, xs, key) == [xs[0]] + tail;
    } else {
      BelowTotal(key(x), key(xs[0]));
      forall j | 0 <= j < |xs|
        ensures Below(key(x), key(xs[j]))
      {
        if j > 0 {
          BelowTransitive(key(x), key(xs[0]), key(xs[j]));
        }
      }
    }
  }

  /** With distinct keys, the sort's output is strictly increasing. */
  lemma {:induction false} SortBySorted<T>(xs: seq<T>, key: T -> string)
    requires DistinctKeys(xs, key)
    ensures SortedBy(SortBy(xs, key), key)
    decreases |xs|
  {
    if |xs| > 0 {
      var tail := SortBy(xs[1..], key);
      SortBySorted(xs[1..], key);
      forall i | 0 <= i < |tail|
        ensures key(tail[i]) != key(xs[0])
      {
        assert tail[i] in multiset(xs[1..]);
        var k :| 0 <= k < |xs[1..]| && xs[1..][k] == tail[i];
        assert xs[k + 1] == tail[i];
      }
      InsertSorted(xs[0], tail, key);
    }
  }

  /** Two strictly increasing sequences with the same elements are equal. */
  lemma {:induction false} SortedUnique<T>(a: seq<T>, b: seq<T>, key: T -> string)
    requires SortedBy(a, key) && SortedBy(b, key)
    requires forall x :: x in a <==> x in b
    ensures a == b
    decreases |a|
  {
    if |a| > 0 {
      assert a[0] in b;
      assert |b| > 0;
      if a[0] != b[0] {
        var k :| 0 <= k < |b| && b[k] == a[0];
        assert b[0] in a;
        var m :| 0 <= m < |a| && a[m] == b[0];
        assert Below(key(b[0]), key(a[0]));
        assert Below(key(a[0]), key(b[0]));
        BelowAsymmetric(key(a[0]), key(b[0]));
      }
      forall x
        ensures x in a[1..] <==> x in b[1..]
      {
        if x in a[1..] {
          var i :| 0 <= i < |a[1..]| && a[1..][i] == x;
          BelowIrreflexive(key(a[0]));
          assert x != a[0];
          assert x in b;
          var j :| 0 <= j < |b| && b[j] == x;
          assert j != 0;
          assert b[1..][j - 1] == x;
        }
        if x in b[1..] {
          var i :| 0 <= i < |b[1..]| && b[1..][i] == x;
          BelowIrreflexive(key(b[0]));
          assert x != b[0];
          assert x in a;
          var j :| 0 <= j < |a| && a[j] == x;
          assert j != 0;
          assert a[1..][j - 1] == x;
        }
      }
      SortedUnique(a[1..], b[1..], key);
      assert a == [a[0]] + a[1..] && b == [b[0]] + b[1..];
    }
  }

  /** Sorting forgets the input order: permutations sort to the same sequence. */
  lemma SortByPermutationInvariant<T>(xs: seq<T>, ys: seq<T>, key: T -> string)
    requires DistinctKeys(xs, key) && DistinctKeys(ys, key)
    requires multiset(xs) == multiset(ys)
    ensures SortBy(xs, key) == SortBy(ys, key)
  {
    SortBySorted(xs, key);
    SortBySorted(ys, key);
    var a, b := SortBy(xs, key), SortBy(ys, key);
    forall x
      ensures x in a <==> x in b
    {
      assert x in a <==> x in multiset(a);
      assert x in b <==> x in multiset(b);
    }
    SortedUnique(a, b, key);
  }

  /** The result of sorting is the strictly increasing arrangement of the
      input's elements, whatever order they arrived in. */
  lemma SortByCharacterized<T>(xs: seq<T>, key: T -> string, r: seq<T>)
    requires DistinctKeys(xs, key)
    requires SortedBy(r, key)
    requires forall x :: x in r <==> x in xs
    ensures SortBy(xs, key) == r
  {
    SortBySorted(xs, key);
    var a := SortBy(xs, key);
    forall x
      ensures x in a <==> x in r
    {
      assert x in a <==> x in multiset(a);
    }
    SortedUnique(a, r, key);
  }
}

=== FILE: text.dfy ===
/** String helpers with the semantics of the JavaScript built-ins the handlers
    use: `trim`, `toLowerCase`, `slice`, `split` on a literal separator,
    `join`, `.length` and decimal number formatting. Strings are sequences of
    Unicode scalar values; `.length` counts UTF-16 code units. */
module Text {
  import opened Wrappers

  // ---------------------------------------------------------------------------
  // Whitespace and trimming
  // ---------------------------------------------------------------------------

  /** ASCII whitespace as matched by `\s` and stripped by `trim`. */
  predicate IsSpace(c: char) {
    c == ' ' || c == '\t' || c == '\n' || c == '\U{000B}' || c == '\U{000C}' || c == '\r'
  }

  predicate AllSpace(s: string) {
    forall i :: 0 <= i < |s| ==> IsSpace(s[i])
  }

  /** Drops the whitespace prefix; what is left starts with a non-space. */
  function TrimStart(s: string): (r: string)
    ensures |r| <= |s| && r == s[|s| - |r|..]
    ensures AllSpace(s[..|s| - |r|])
    ensures r != [] ==> !IsSpace(r[0])
  {
    if |s| > 0 && IsSpace(s[0]) then
      var t := s[1..];
      var r := TrimStart(t);
      assert s[|s| - |r|..] == t[|t| - |r|..];
      assert s[..|s| - |r|] == [s[0]] + t[..|t| - |r|];
      r
    else s
  }

  /** Drops the whitespace suffix; what is left ends with a non-space. */
  function TrimEnd(s: string): (r: string)
    ensures |r| <= |s| && r == s[..|r|]
    ensures AllSpace(s[|r|..])
    ensures r != [] ==> !IsSpace(r[|r| - 1])
  {
    if |s| > 0 && IsSpace(s[|s| - 1]) then
      var t := s[..|s| - 1];
      var r := TrimEnd(t);
      assert s[..|r|] == t[..|r|];
      assert s[|r|..] == t[|r|..] + [s[|s| - 1]];
      r
    else s
  }

  /** `r` sits in `s` at `i` with only whitespace before and after it. */
  predicate SurroundedBySpace(s: string, i: int, r: string) {
    0 <= i <= |s| - |r| && r == s[i..i + |r|] && AllSpace(s[..i]) && AllSpace(s[i + |r|..])
  }

  /** `String.prototype.trim`: the unique infix of `s` that is surrounded by
      whitespace only and neither starts nor ends with whitespace. */
  function Trim(s: string): (r: string)
    ensures exists i :: SurroundedBySpace(s, i, r)
    ensures r != [] ==> !IsSpace(r[0]) && !IsSpace(r[|r| - 1])
    ensures r == [] <==> AllSpace(s)
  {
    var t := TrimStart(s);
    var r := TrimEnd(t);
    TrimLocates(s, t, r);
    assert SurroundedBySpace(s, |s| - |t|, r);
    r
  }

  /** Where the result of trimming both ends sits inside the original. */
  lemma TrimLocates(s: string, t: string, r: string)
    requires |t| <= |s| && t == s[|s| - |t|..] && AllSpace(s[..|s| - |t|])
    requires t != [] ==> !IsSpace(t[0])
    requires |r| <= |t| && r == t[..|r|] && AllSpace(t[|r|..])
    ensures var i := |s| - |t|;
            0 <= i <= |s| - |r| && r == s[i..i + |r|] && AllSpace(s[..i]) && AllSpace(s[i + |r|..])
    ensures r == [] <==> AllSpace(s)
  {
    var i := |s| - |t|;
    assert s[i + |r|..] == t[|r|..];
    if t != [] {
      assert t[0] == s[i];
    }
    if r == [] {
      assert t[|r|..] == t;
      assert t == [];
      forall j | 0 <= j < |s| ensures IsSpace(s[j]) {
        assert s[j] == s[..i][j];
      }
    }
  }

  // ---------------------------------------------------------------------------
  // Length and case
  // ---------------------------------------------------------------------------

  /** JavaScript's `.length`: characters outside the Basic Multilingual Plane
      are stored as a surrogate pair and count twice. */
  function Utf16Length(s: string): (n: nat)
    ensures |s| <= n <= 2 * |s|
    ensures (forall i :: 0 <= i < |s| ==> s[i] as int < 0x1_0000) ==> n == |s|
  {
    if |s| == 0 then 0
    else (if s[0] as int >= 0x1_0000 then 2 else 1) + Utf16Length(s[1..])
  }

  /** One character is one code unit, or a surrogate pair from U+10000 on. */
  lemma Utf16LengthOfChar(c: char)
    ensures Utf16Length([c]) == if c as int >= 0x1_0000 then 2 else 1
  {
  }

  /** `.length` of a concatenation is the sum of the lengths, so with
      `Utf16LengthOfChar` it fixes the count of every string. */
  lemma {:induction false} Utf16LengthAppend(a: string, b: string)
    ensures Utf16Length(a + b) == Utf16Length(a) + Utf16Length(b)
    decreases |a|
  {
    if |a| > 0 {
      assert (a + b)[0] == a[0];
      assert (a + b)[1..] == a[1..] + b;
      Utf16LengthAppend(a[1..], b);
    } else {
      assert a + b == b;
    }
  }

  predicate IsUpper(c: char) {
    'A' <= c <= 'Z'
  }

  /** `toLowerCase` restricted to ASCII letters; every other character is kept. */
  function LowerChar(c: char): (d: char)
    ensures !IsUpper(d)
    ensures !IsUpper(c) ==> d == c
    ensures IsUpper(c) ==> 'a' <= d <= 'z' && d as int - 'a' as int == c as int - 'A' as int
  {
    if IsUpper(c) then (c as int - 'A' as int + 'a' as int) as char else c
  }

  function Lower(s: string): (r: string)
    ensures |r| == |s|
    ensures forall i :: 0 <= i < |s| ==> r[i] == LowerChar(s[i])
  {
    seq(|s|, i requires 0 <= i < |s| => LowerChar(s[i]))
  }

  predicate NoUpper(s: string) {
    forall i :: 0 <= i < |s| ==> !IsUpper(s[i])
  }

  /** Lower-casing maps concatenations to concatenations and leaves a string
      without capitals alone. */
  lemma LowerAppend(a: string, b: string)
    ensures Lower(a + b) == Lower(a) + Lower(b)
  {
  }

  lemma LowerFixesNoUpper(s: string)
    requires NoUpper(s)
    ensures Lower(s) == s
  {
  }

  // ---------------------------------------------------------------------------
  // Slicing, joining and splitting
  // ---------------------------------------------------------------------------

  /** `s.slice(0, n)`: clamps instead of failing on short strings. */
  function Take(s: string, n: nat): (r: string)
    ensures |r| == if n <= |s| then n else |s|
    ensures r <= s
  {
    if n <= |s| then s[..n] else s
  }

  /** `Array.prototype.join`. */
  function Join(parts: seq<string>, sep: string): string {
    if |parts| == 0 then ""
    else if |parts| == 1 then parts[0]
    else parts[0] + sep + Join(parts[1..], sep)
  }

  lemma {:induction false} JoinAppend(a: seq<string>, b: seq<string>, sep: string)
    requires |a| > 0 && |b| > 0
    ensures Join(a + b, sep) == Join(a, sep) + sep + Join(b, sep)
    decreases |a|
  {
    if |a| == 1 {
      assert (a + b)[1..] == b;
    } else {
      assert (a + b)[1..] == a[1..] + b;
      JoinAppend(a[1..], b, sep);
    }
  }

  lemma JoinThree(a: string, b: string, c: string, sep: string)
    ensures Join([a, b, c], sep) == a + sep + b + sep + c
  {
    assert [a, b, c][1..] == [b, c];
    assert [b, c][1..] == [c];
    assert Join([c], sep) == c;
    assert Join([b, c], sep) == b + sep + c;
  }

  /** `sep` occurs in `s` starting at position `i`. */
  predicate OccursAt(s: string, sep: string, i: nat) {
    i + |sep| <= |s| && s[i..i + |sep|] == sep
  }

  predicate Contains(s: string, sep: string) {
    exists i: nat | i <= |s| :: OccursAt(s, sep, i)
  }

  /** `indexOf(sep, from)`: the first occurrence at or after `from`. */
  function IndexOf(s: string, sep: string, from: nat): (r: Option<nat>)
    requires |sep| > 0 && from <= |s|
    ensures r.Some? ==> from <= r.value && OccursAt(s, sep, r.value)
    ensures r.Some? ==> forall j: nat :: from <= j < r.value ==> !OccursAt(s, sep, j)
    ensures r.None? ==> forall j: nat :: from <= j ==> !OccursAt(s, sep, j)
    decreases |s| - from
  {
    if from + |sep| > |s| then None
    else if s[from..from + |sep|] == sep then Some(from)
    else IndexOf(s, sep, from + 1)
  }

  /** The first occurrence at or after `from` is what `IndexOf` finds. */
  lemma {:induction false} IndexOfFinds(s: string, sep: string, from: nat, k: nat)
    requires |sep| > 0 && from <= k
    requires OccursAt(s, sep, k)
    requires forall j: nat :: from <= j < k ==> !OccursAt(s, sep, j)
    ensures IndexOf(s, sep, from) == Some(k)
    decreases k - from
  {
    if from < k {
      assert !OccursAt(s, sep, from);
      IndexOfFinds(s, sep, from + 1, k);
    }
  }

  /** `lastIndexOf(c)`: the position of the last `c`, if any. */
  function LastIndexOf(s: string, c: char): (r: Option<nat>)
    ensures r.Some? ==> r.value < |s| && s[r.value] == c
    ensures r.Some? ==> forall j :: r.value < j < |s| ==> s[j] != c
    ensures r.None? <==> c !in s
  {
    if |s| == 0 then None
    else if s[|s| - 1] == c then Some(|s| - 1)
    else
      assert s == s[..|s| - 1] + [s[|s| - 1]];
      LastIndexOf(s[..|s| - 1], c)
  }

  /** `String.prototype.split` with a non-empty literal separator: the pieces
      between consecutive non-overlapping occurrences, scanning left to right. */
  function Split(s: string, sep: string): (parts: seq<string>)
    requires |sep| > 0
    ensures |parts| >= 1
    decreases |s|
  {
    match IndexOf(s, sep, 0)
    case None => [s]
    case Some(k) => [s[..k]] + Split(s[k + |sep|..], sep)
  }

  /** Splitting loses nothing: joining the pieces back gives the input. */
  lemma {:induction false} SplitThenJoin(s: string, sep: string)
    requires |sep| > 0
    ensures Join(Split(s, sep), sep) == s
    decreases |s|
  {
    match IndexOf(s, sep, 0)
    case None =>
    case Some(k) =>
      var rest := Split(s[k + |sep|..], sep);
      assert Split(s, sep) == [s[..k]] + rest;
      assert (([s[..k]] + rest)[1..]) == rest;
      SplitThenJoin(s[k + |sep|..], sep);
      assert s == s[..k] + s[k..k + |sep|] + s[k + |sep|..];
  }

  /** No piece of a split contains the separator. */
  lemma {:induction false} SplitPiecesAvoidSeparator(s: string, sep: string)
    requires |sep| > 0
    ensures forall i :: 0 <= i < |Split(s, sep)| ==> !Contains(Split(s, sep)[i], sep)
    decreases |s|
  {
    match IndexOf(s, sep, 0)
    case None =>
      assert Split(s, sep) == [s];
    case Some(k) =>
      var head := s[..k];
      forall j: nat | OccursAt(head, sep, j)
        ensures false
      {
        assert head[j..j + |sep|] == s[j..j + |sep|];
        assert OccursAt(s, sep, j);
      }
      SplitPiecesAvoidSeparator(s[k + |sep|..], sep);
      assert Split(s, sep) == [head] + Split(s[k + |sep|..], sep);
  }

  /** `s.replace(pat, rep)` with a string pattern: only the first occurrence
      is replaced. */
  function ReplaceFirst(s: string, pat: string, rep: string): (r: string)
    requires |pat| > 0
    ensures !Contains(s, pat) ==> r == s
    ensures forall k: nat :: OccursAt(s, pat, k) && (forall j: nat :: j < k ==> !OccursAt(s, pat, j))
              ==> r == s[..k] + rep + s[k + |pat|..]
  {
    match IndexOf(s, pat, 0)
    case None => s
    case Some(i) =>
      s[..i] + rep + s[i + |pat|..]
  }

  /** For a one-character separator, splitting undoes joining pieces that do
      not contain that character. */
  lemma {:induction false} JoinThenSplit(parts: seq<string>, c: char)
    requires |parts| >= 1
    requires forall i :: 0 <= i < |parts| ==> c !in parts[i]
    ensures Split(Join(parts, [c]), [c]) == parts
    decreases |parts|
  {
    var s := Join(parts, [c]);
    var k := |parts[0]|;
    forall j: nat | j < k
      ensures !OccursAt(s, [c], j)
    {
      assert s[j] == parts[0][j];
    }
    if |parts| > 1 {
      assert s == parts[0] + [c] + Join(parts[1..], [c]);
      assert OccursAt(s, [c], k);
      assert IndexOf(s, [c], 0) == Some(k);
      assert s[..k] == parts[0];
      assert s[k + 1..] == Join(parts[1..], [c]);
      JoinThenSplit(parts[1..], c);
      assert parts == [parts[0]] + parts[1..];
    }
  }

  // ---------------------------------------------------------------------------
  // Decimal numbers
  // ---------------------------------------------------------------------------

  predicate IsDigit(c: char) {
    '0' <= c <= '9'
  }

  predicate AllDigits(s: string) {
    forall i :: 0 <= i < |s| ==> IsDigit(s[i])
  }

  function DigitChar(d: nat): (c: char)
    requires d < 10
    ensures IsDigit(c) && c as int - '0' as int == d
  {
    ('0' as int + d) as char
  }

  /** A template literal's rendering of a non-negative integer (`${n}`):
      decimal digits with no leading zero. */
  function NatToDecimal(n: nat): (r: string)
    ensures |r| >= 1 && AllDigits(r)
    ensures r == "0" <==> n == 0
    ensures r[0] != '0' || r == "0"
    decreases n
  {
    if n < 10 then [DigitChar(n)] else NatToDecimal(n / 10) + [DigitChar(n % 10)]
  }

  /** Reads a string of decimal digits back as a number. */
  function DecimalValue(s: string): nat
    requires AllDigits(s)
  {
    if |s| == 0 then 0 else DecimalValue(s[..|s| - 1]) * 10 + (s[|s| - 1] as int - '0' as int)
  }

  lemma {:induction false} DecimalRoundTrip(n: nat)
    ensures DecimalValue(NatToDecimal(n)) == n
    decreases n
  {
    if n >= 10 {
      var p := NatToDecimal(n / 10);
      var r := NatToDecimal(n);
      assert r[..|r| - 1] == p;
      DecimalRoundTrip(n / 10);
    }
  }
}

=== FILE: trash_bin.dfy ===
/** The trash bin dialog's state: the list of trashed images as last fetched,
    and the multi-select state. Each handler's request outcome is a
    parameter; a handler that sends nothing says so in its result. */
module TrashBin {
  import opened Selection

  datatype Image = Image(id: string, url: string, filename: string)

  datatype Bin = Bin(images: seq<Image>, selection: Selection)

  /** What a handler did: the new state and the image ids it sent a request
      for (`empty-trash` carries no id and is reported as `emptied`). */
  datatype Step = Step(bin: Bin, requested: set<string>, emptied: bool)

  // ---------------------------------------------------------------------------
  // Filtering the list
  // ---------------------------------------------------------------------------

  /** `images.filter(img => !ids.has(img.id))`. */
  function Drop(images: seq<Image>, ids: set<string>): (r: seq<Image>)
    ensures |r| <= |images|
    ensures forall im :: im in r <==> im in images && im.id !in ids
    ensures forall k :: 0 <= k < |r| ==> r[k].id !in ids
  {
    if |images| == 0 then []
    else (if images[0].id in ids then [] else [images[0]]) + Drop(images[1..], ids)
  }

  /** `t` can be read off `s` left to right, skipping some entries. */
  predicate InOrder(t: seq<Image>, s: seq<Image>)
    decreases |s|
  {
    if |t| == 0 then true
    else if |s| == 0 then false
    else if t[0] == s[0] then InOrder(t[1..], s[1..])
    else InOrder(t, s[1..])
  }

  lemma {:induction false} InOrderSkip(t: seq<Image>, s: seq<Image>)
    requires |s| > 0 && InOrder(t, s[1..])
    ensures InOrder(t, s)
    decreases |s|, 0
  {
    if |t| > 0 && t[0] == s[0] {
      InOrderTail(t, s[1..]);
    }
  }

  lemma {:induction false} InOrderTail(t: seq<Image>, s: seq<Image>)
    requires |t| > 0 && InOrder(t, s)
    ensures InOrder(t[1..], s)
    decreases |s|, 1
  {
    if t[0] == s[0] {
      InOrderSkip(t[1..], s);
    } else {
      InOrderTail(t, s[1..]);
      InOrderSkip(t[1..], s);
    }
  }

  /** The images kept appear in their original order. */
  lemma {:induction false} DropKeepsOrder(images: seq<Image>, ids: set<string>)
    ensures InOrder(Drop(images, ids), images)
    decreases |images|
  {
    if |images| > 0 {
      DropKeepsOrder(images[1..], ids);
      var rest := Drop(images[1..], ids);
      if images[0].id in ids {
        assert Drop(images, ids) == rest;
        InOrderSkip(rest, images);
      } else {
        assert Drop(images, ids) == [images[0]] + rest;
        assert (Drop(images, ids))[1..] == rest;
      }
    }
  }

  /** Each kept image is kept as often as it occurred; dropped ones vanish. */
  lemma {:induction false} DropCounts(images: seq<Image>, ids: set<string>, im: Image)
    ensures multiset(Drop(images, ids))[im] == if im.id in ids then 0 else multiset(images)[im]
    decreases |images|
  {
    if |images| > 0 {
      DropCounts(images[1..], ids, im);
      assert images == [images[0]] + images[1..];
    }
  }

  /** A list without any of the ids is left exactly as it was. */
  lemma {:induction false} DropNothing(images: seq<Image>, ids: set<string>)
    requires forall k :: 0 <= k < |images| ==> images[k].id !in ids
    ensures Drop(images, ids) == images
    decreases |images|
  {
    if |images| > 0 {
      DropNothing(images[1..], ids);
      assert images == [images[0]] + images[1..];
    }
  }

  // ---------------------------------------------------------------------------
  // Handlers
  // ---------------------------------------------------------------------------

  /** `handleRestore` and `handlePermanentDelete`: on an ok response every
      entry with that id leaves the list; otherwise nothing changes. Neither
      touches the selection. */
  function RemoveOne(b: Bin, id: string, ok: bool): (s: Step)
    ensures s.requested == {id} && !s.emptied
    ensures s.bin.selection == b.selection
    ensures !ok ==> s.bin == b
    ensures ok ==> forall im :: im in s.bin.images <==> im in b.images && im.id != id
  {
    Step(Bin(if ok then Drop(b.images, {id}) else b.images, b.selection), {id}, false)
  }

  /** `handleEmptyTrash`: nothing is sent for an empty list; an ok response
      empties it. */
  function EmptyTrash(b: Bin, ok: bool): (s: Step)
    ensures s.requested == {}
    ensures s.emptied <==> |b.images| > 0
    ensures s.bin.selection == b.selection
    ensures s.bin.images == (if |b.images| > 0 && ok then [] else b.images)
  {
    if |b.images| == 0 then Step(b, {}, false)
    else Step(Bin(if ok then [] else b.images, b.selection), {}, true)
  }

  /** `handleBulkRestore` and `handleBulkDelete`: one request per selected id;
      once they all settle the selected images leave the list and selection
      ends. The responses' `ok` flags are never read (src/components/TrashBin.tsx
      lines 198-201 and 232-235 await them and move on), so they are not an
      input: only a rejected fetch (`rejected`) stops the update. */
  function Bulk(b: Bin, rejected: bool): (s: Step)
    ensures b.selection.selected == {} ==> s == Step(b, {}, false)
    ensures b.selection.selected != {} ==> s.requested == b.selection.selected && !s.emptied
    ensures b.selection.selected != {} && rejected ==> s.bin == b
    ensures b.selection.selected != {} && !rejected ==>
              s.bin.selection == Idle &&
              forall im :: im in s.bin.images <==> im in b.images && im.id !in b.selection.selected
  {
    if b.selection.selected == {} then Step(b, {}, false)
    else if rejected then Step(b, b.selection.selected, false)
    else Step(Bin(Drop(b.images, b.selection.selected), Idle), b.selection.selected, false)
  }

  /** `selectAll` over the trashed images. */
  function SelectAllTrashed(b: Bin): (r: Bin)
    ensures r.images == b.images && r.selection.active == b.selection.active
    ensures forall id :: id in r.selection.selected <==> exists k :: 0 <= k < |b.images| && b.images[k].id == id
  {
    var ids := seq(|b.images|, k requires 0 <= k < |b.images| => b.images[k].id);
    assert forall k :: 0 <= k < |b.images| ==> ids[k] == b.images[k].id;
    Bin(b.images, SelectAll(b.selection, ids))
  }

  // ---------------------------------------------------------------------------
  // Properties
  // ---------------------------------------------------------------------------

  /** A settled bulk operation leaves the images not selected, in their
      order and multiplicity. */
  lemma BulkKeepsUnselected(b: Bin, im: Image)
    requires b.selection.selected != {}
    ensures var s := Bulk(b, false);
            InOrder(s.bin.images, b.images)
            && multiset(s.bin.images)[im] == if im.id in b.selection.selected then 0 else multiset(b.images)[im]
  {
    DropKeepsOrder(b.images, b.selection.selected);
    DropCounts(b.images, b.selection.selected, im);
  }

  /** Restoring an image and selecting everything afterwards no longer
      selects it. */
  lemma RestoredIsNotReselected(b: Bin, id: string)
    ensures id !in SelectAllTrashed(RemoveOne(b, id, true).bin).selection.selected
  {
    var kept := RemoveOne(b, id, true).bin.images;
    forall k | 0 <= k < |kept| ensures kept[k].id != id {
      assert kept[k] in kept;
    }
  }

  /** A restore with an ok response removes exactly the entries with that id,
      keeping the rest in order and multiplicity. */
  lemma RemoveOneKeepsOthers(b: Bin, id: string, im: Image)
    ensures var s := RemoveOne(b, id, true);
            InOrder(s.bin.images, b.images)
            && multiset(s.bin.images)[im] == if im.id == id then 0 else multiset(b.images)[im]
  {
    DropKeepsOrder(b.images, {id});
    DropCounts(b.images, {id}, im);
  }

  /** Removing an id the list does not hold changes nothing. */
  lemma RemoveAbsent(b: Bin, id: string)
    requires forall k :: 0 <= k < |b.images| ==> b.images[k].id != id
    ensures RemoveOne(b, id, true).bin == b
  {
    DropNothing(b.images, {id});
  }

  /** Emptying the trash has the same effect on the list as selecting every
      trashed image and deleting the selection in bulk. */
  lemma EmptyIsBulkOfAll(b: Bin)
    requires |b.images| > 0
    ensures EmptyTrash(b, true).bin.images == Bulk(SelectAllTrashed(b), false).bin.images == []
  {
    var all := SelectAllTrashed(b);
    assert b.images[0].id in all.selection.selected;
    forall k | 0 <= k < |b.images| ensures b.images[k].id in all.selection.selected {
    }
    DropEverything(b.images, all.selection.selected);
  }

  /** Dropping every listed id leaves nothing. */
  lemma {:induction false} DropEverything(images: seq<Image>, ids: set<string>)
    requires forall k :: 0 <= k < |images| ==> images[k].id in ids
    ensures Drop(images, ids) == []
    decreases |images|
  {
    if |images| > 0 {
      DropEverything(images[1..], ids);
    }
  }
}

=== FILE: wrappers.dfy ===
/** Optional values, used wherever ImageVault's code reads a field that may be
    absent (`undefined`/`null` in JavaScript). */
module Wrappers {

  datatype Option<+T> = None | Some(value: T)
}
